=== FILE: README.md ===
# WhatsAble node — Dafny model

This project models the decision logic of the WhatsAble action node for the
n8n workflow runtime (`nodes/WhatsAble/WhatsAble.node.ts`). The node lets a
workflow send WhatsApp messages through one of three remote products:
`notifier`, `notifyer` and `whatsable`. It has four pieces of logic:

- **`getTemplateVariables` / `parseTemplateFormat`** turn the compact
  format string a template descriptor carries in `template_formate`, such
  as `{b:2,m:1,vw:1}`, into resource-mapper fields: `body1..bodyN`,
  `media` and `visit_website`.
- **`getOperations`** maps the API-key validation response to the operation
  menu.
- **`execute`** validates the API key once per batch. It then routes each
  item on (product, operation), and on message type for non-template
  sends, builds the request body and calls the service.
- **The per-item error policy** records `{error}` when continue-on-fail is
  on and aborts the run otherwise.

Modules, one per concern:

- `Base` (`base.dfy`): `Option`.
- `JsText` (`js_text.dfy`): the JavaScript string built-ins the parser
  relies on, with their ECMAScript semantics written out: `trim`,
  `slice(1, -1)`, `split` on one character, `parseInt` without a radix
  (including the `0x` prefix and `NaN`), and `${n}` for a natural number.
- `TemplateFields` (`template_fields.dfy`): the template descriptor, the
  resource-mapper field and the format parser. An exception in a part ends
  the `forEach`, and the catch returns the fields pushed so far. The parser
  models this as a fold (`Collect`) over what each part does (`ParsePart`):
  a part either emits its fields or throws before pushing any.
- `Api` (`api.dfy`): the validation response, the request bodies and the
  send outcome. The service is an oracle.
- `Operations` (`operations.dfy`): `getOperations` and the routing table.
- `Dispatch` (`dispatch.dfy`): what one item does: route, body, call,
  response check.
- `Execution` (`execution.dfy`): batch validation and the fold over items.

Conventions:

- JavaScript truthiness of a string field is modelled by `""` standing for
  missing or falsy.
- HTTP is an oracle `send: (nat, Request) -> HttpOutcome`, indexed by item.
- `JSON.parse` is an oracle `decode: string -> Decoded`.
- Every item's step is a pure function of the item, its index, the
  validated context and the oracles. So the loop folds over the list of
  steps (`Execution.Steps`), and a run records the requests it issued.

Two behaviours of the code are stated as lemmas rather than hidden. They
are not claimed as defects, because what the remote service expects is
not visible here:

- `getOperations` offers `sendMessage` for an unknown product, but
  `execute` rejects that pair as not supported
  (`Operations.UnknownProductOfferIsRejected`).
- The template send renumbers *all* mapper values as `body1..bodyK`, so the
  value of a `media` field goes out as a body variable
  (`Dispatch.MediaValueSentAsBodyVariable`).

## Model

| member | source | states |
|---|---|---|
| JsText.TrimStart | nodes/WhatsAble/WhatsAble.node.ts:1063 | removes exactly the longest leading run of ECMAScript white space; the rest starts with a non-space |
| JsText.TrimEnd | nodes/WhatsAble/WhatsAble.node.ts:1063 | removes exactly the longest trailing run of white space |
| JsText.TrimKeepsUnpadded | nodes/WhatsAble/WhatsAble.node.ts:1063 | a part with no surrounding white space is unchanged by `trim` |
| JsText.TrimPadded | nodes/WhatsAble/WhatsAble.node.ts:1063 | `trim` removes exactly the white-space padding on both sides of a part that neither starts nor ends with white space |
| JsText.SliceInner | nodes/WhatsAble/WhatsAble.node.ts:1063 | `slice(1,-1)` is the text between the first and last character, empty for fewer than two characters |
| JsText.Split | nodes/WhatsAble/WhatsAble.node.ts:1063 | `split` yields at least one piece, no piece contains the separator, and joining the pieces gives the input back |
| JsText.SplitPrefix | nodes/WhatsAble/WhatsAble.node.ts:1066 | a separator-free prefix becomes the start of the first piece |
| JsText.SplitJoin | nodes/WhatsAble/WhatsAble.node.ts:1066 | `split` inverts `join` for separator-free pieces |
| JsText.DigitPrefix | nodes/WhatsAble/WhatsAble.node.ts:1067 | `parseInt` reads the longest prefix of radix digits and stops at the first non-digit |
| JsText.ParseIntOfDecimal | nodes/WhatsAble/WhatsAble.node.ts:1067 | `parseInt` of a canonical decimal numeral is the number it denotes |
| JsText.ParseIntSkipsLeadingSpace | nodes/WhatsAble/WhatsAble.node.ts:1067 | `parseInt` skips any leading ECMAScript white space |
| JsText.ParseIntSign | nodes/WhatsAble/WhatsAble.node.ts:1067 | a leading `-` negates the unsigned numeral after it, a leading `+` is dropped, no white space is skipped after the sign, and `-` or `+` alone is `NaN` |
| JsText.ParseIntHex | nodes/WhatsAble/WhatsAble.node.ts:1067 | after `0x` or `0X`, `parseInt` reads the longest run of hexadecimal digits; the prefix alone is `NaN` |
| JsText.ParseIntDecimalDigits | nodes/WhatsAble/WhatsAble.node.ts:1067 | without a hex prefix, `parseInt` reads the longest run of decimal digits, and is `NaN` exactly when the numeral does not start with a decimal digit |
| JsText.NatToString | nodes/WhatsAble/WhatsAble.node.ts:1072 | `${i}` is a non-empty string of decimal digits with no leading zero |
| JsText.DigitsOfNatToString | nodes/WhatsAble/WhatsAble.node.ts:1072 | reading the digits of `${n}` gives n |
| JsText.ParseIntOfNatToString | nodes/WhatsAble/WhatsAble.node.ts:1067 | `parseInt` inverts the decimal rendering of a count |
| JsText.NatToStringInjective | nodes/WhatsAble/WhatsAble.node.ts:1072 | distinct numbers render differently |
| TemplateFields.BodyIdInjective | nodes/WhatsAble/WhatsAble.node.ts:1072 | distinct positions get distinct ids `body${i}` |
| TemplateFields.BodyFields | nodes/WhatsAble/WhatsAble.node.ts:1070-1080 | the `b:N` loop emits exactly N fields, the j-th being `body{j}`, in ascending order; none when N is not positive |
| TemplateFields.FindKind | nodes/WhatsAble/WhatsAble.node.ts:1083 | `find` by type returns the first component of that type, and nothing exactly when no component has it |
| TemplateFields.ParsePart | nodes/WhatsAble/WhatsAble.node.ts:1065-1121 | one part emits only required, displayed, string-typed mapper fields with known ids; only `b`, `m` and `vw` parts can throw |
| TemplateFields.CollectWellFormed | nodes/WhatsAble/WhatsAble.node.ts:1127-1129 | the fields returned after the `forEach` are mapper fields with known ids whenever every part's are |
| TemplateFields.PartOutcomes | nodes/WhatsAble/WhatsAble.node.ts:1063-1065 | one outcome per comma-separated part, each well formed; that each is the outcome of the part trimmed at both ends is stated by `TemplateFields.PaddedFormatRoundTrip` and `TemplateFields.PaddedBareMedia` |
| TemplateFields.ParseTemplateFormat | nodes/WhatsAble/WhatsAble.node.ts:1062-1124 | every emitted field is required, of type 'string', with id `bodyN`, `media` or `visit_website` |
| TemplateFields.GetTemplateVariables | nodes/WhatsAble/WhatsAble.node.ts:1047-1133 | empty, `notfound` and `error` give no fields; a value that does not decode, decodes to `null`, or has no string `template_formate` gives no fields; all fields are required string fields with known ids |
| TemplateFields.CollectAppend | nodes/WhatsAble/WhatsAble.node.ts:1065-1122 | output order follows part order: the fields of two groups are the first group's followed by the second's, unless the first group threw |
| TemplateFields.ThrowKeepsEarlierFields | nodes/WhatsAble/WhatsAble.node.ts:1127-1129 | when a part throws, the result is exactly the fields accumulated by the parts before it |
| TemplateFields.CollectAllEmit | nodes/WhatsAble/WhatsAble.node.ts:1065-1122 | when no part throws, every part's fields appear and the total count is the sum of the parts' counts |
| TemplateFields.BodyPartEmitsCount | nodes/WhatsAble/WhatsAble.node.ts:1066-1080 | `b:N` with N parsing to a positive number emits exactly `body1..bodyN` when the body example is readable, and throws otherwise |
| TemplateFields.BodyPartWithoutPositiveCount | nodes/WhatsAble/WhatsAble.node.ts:1066-1070 | `b` with a missing, non-numeric or non-positive count emits nothing and does not throw |
| TemplateFields.MediaAndWebsiteParts | nodes/WhatsAble/WhatsAble.node.ts:1066-1120 | `m` emits exactly one `media` field and `vw` exactly one `visit_website` field, whatever the count and also with no count, unless their component lookup throws |
| TemplateFields.ExtraSegmentsIgnored | nodes/WhatsAble/WhatsAble.node.ts:1066 | a part with more than one colon, as in `b:2:3`, takes its type and count from the first two segments and behaves as `b:2` |
| TemplateFields.UnknownPartEmitsNothing | nodes/WhatsAble/WhatsAble.node.ts:1069-1121 | a part of any other type emits nothing and never throws |
| TemplateFields.RenderedPartShape | nodes/WhatsAble/WhatsAble.node.ts:1063 | a rendered part, with or without a count, is non-empty, has no comma, neither starts nor ends with white space, and survives trimming |
| TemplateFields.PartRoundTrip | nodes/WhatsAble/WhatsAble.node.ts:1065-1121 | a rendered part parses back to its reference fields, or throws exactly when its reference lookup throws |
| TemplateFields.CollectSpecOutcomes | nodes/WhatsAble/WhatsAble.node.ts:1065-1122 | collecting the reference outcomes gives the reference fields |
| TemplateFields.FormatRoundTrip | nodes/WhatsAble/WhatsAble.node.ts:1062-1124 | rendering parts as `{b:N,b,m:1,m,vw:1,vw}` and parsing back yields, in order, the reference fields of every part before the first one that throws |
| TemplateFields.PaddedFormatRoundTrip | nodes/WhatsAble/WhatsAble.node.ts:1062-1124 | a format whose parts carry any white space before and after them, as in `{b:1, m }`, parses back to the same reference fields: each part is trimmed at both ends before it is handled, so padding after a part without a count does not change its type |
| TemplateFields.PaddedBareMedia | nodes/WhatsAble/WhatsAble.node.ts:1062-1100 | a format holding only a bare `m` with white space on both sides, as in `{m\n}`, yields the `media` field unless the header lookup throws |
| TemplateFields.EmptyFormat | nodes/WhatsAble/WhatsAble.node.ts:1062-1065 | the format of no parts is `{}`, and it yields no field |
| TemplateFields.TemplateVariablesOfRenderedFormat | nodes/WhatsAble/WhatsAble.node.ts:1047-1133 | end to end: an option value carrying a rendered format yields the reference fields |
| Operations.GetOperations | nodes/WhatsAble/WhatsAble.node.ts:480-552 | never empty; a failed or throwing validation gives exactly the single `error` entry; otherwise notifier gets `[sendMessage]`, notifyer `[sendNotifyerTemplate, sendNonTemplateMessage]` in that order, whatsable `[sendWhatsableMessage]`, any other product `[sendMessage]`; no value is offered twice |
| Operations.RouteOf | nodes/WhatsAble/WhatsAble.node.ts:754-1023 | each of the four supported (product, operation) pairs takes its own route: (notifier, sendMessage) the notifier send, (notifyer, sendNotifyerTemplate) the template send, (notifyer, sendNonTemplateMessage) the non-template send, (whatsable, sendWhatsableMessage) the whatsable send; every other pair is unsupported |
| Operations.OfferedIffDispatched | nodes/WhatsAble/WhatsAble.node.ts:510-533 | for notifier, notifyer and whatsable, an operation is offered exactly when `execute` dispatches it |
| Operations.UnknownProductOfferIsRejected | nodes/WhatsAble/WhatsAble.node.ts:534-541 | any other product is offered only `sendMessage`, which `execute` does not support for it |
| Dispatch.ValidatedContext | nodes/WhatsAble/WhatsAble.node.ts:736-741 | the stored user id is set exactly when the product is `notifyer` and the response has a user id, and is that id |
| Dispatch.TemplateUserId | nodes/WhatsAble/WhatsAble.node.ts:801 | the template `user_id` is never empty and is the stored user id when there is one |
| Dispatch.Renumber | nodes/WhatsAble/WhatsAble.node.ts:786-790 | K mapper values become K variables, the j-th value under `body{j}`, in enumeration order |
| Dispatch.Lookup | nodes/WhatsAble/WhatsAble.node.ts:803 | reading a key from the variables object finds a pair with that key, or none exists |
| Dispatch.RenumberLookup | nodes/WhatsAble/WhatsAble.node.ts:786-790 | variable keys are distinct; `body{k}` reads the k-th value; no other key is present |
| Dispatch.ContentOf | nodes/WhatsAble/WhatsAble.node.ts:813-997 | exactly text, document, image, video and audio build a body, whose `type` is the chosen message type and which carries that type's parameters: text and `preview_url`, document link, caption and filename, image and video link and caption, audio link |
| Dispatch.Deliver | nodes/WhatsAble/WhatsAble.node.ts:754-1027 | the request is sent; the item fails exactly when the call throws (with its message) or, for non-template sends, the response has a truthy `body.message` (that message) or else a truthy `message` (that message); otherwise it outputs the response, or the not-implemented object when the response is falsy |
| Dispatch.ProcessItem | nodes/WhatsAble/WhatsAble.node.ts:748-1027 | an unsupported pair fails with "Operation X is not supported for product type Y" and sends nothing; notifier and whatsable items always send and fail only when the call throws; a template item fails on an undecodable descriptor, then on a null mapper value, then on a `null` descriptor, and otherwise sends and fails only when the call throws; a non-template item of an unknown type sends nothing and outputs the not-implemented object, and of a known type sends and fails when the call throws or the reply reports a message; an item that sent a request ends as `Deliver` ends it, so a successful one outputs the service's response |
| Dispatch.RequestFollowsRoute | nodes/WhatsAble/WhatsAble.node.ts:754-1020 | the body kind matches the route; notifier and whatsable bodies copy the item's recipient, text, attachment and filename; the template body carries the user id, the decoded template id, the renumbered values and the recipient; the non-template body carries the recipient, the content of the chosen type, `recipient_type` "individual" and `messaging_product` "whatsapp"; the non-template and whatsable bodies carry the batch API key |
| Dispatch.RenumberMatchesBodyFields | nodes/WhatsAble/WhatsAble.node.ts:786-790 | the variable keys are position by position the ids of the `b:N` fields when N values are given |
| Dispatch.MediaValueSentAsBodyVariable | nodes/WhatsAble/WhatsAble.node.ts:788-790 | for a template with one body variable and a media header, the media value is sent as `body2`, not `media` |
| Execution.RunItems | nodes/WhatsAble/WhatsAble.node.ts:747-1041 | with continue-on-fail the run completes with one entry per item, paired with its index; without it the run stops at the first failing item with that item's message |
| Execution.CompletesIffNoItemFails | nodes/WhatsAble/WhatsAble.node.ts:1029-1039 | without continue-on-fail the run completes exactly when no item fails |
| Execution.SentRequestsComeFromReachedItems | nodes/WhatsAble/WhatsAble.node.ts:747-1023 | every request sent was built by the item it is tagged with, an item the run reached |
| Execution.SentRequestsInItemOrder | nodes/WhatsAble/WhatsAble.node.ts:747 | requests are issued strictly in item order |
| Execution.ReachedItemsRequestsAreSent | nodes/WhatsAble/WhatsAble.node.ts:747-1023 | every request an item up to the abort point built was issued |
| Execution.Execute | nodes/WhatsAble/WhatsAble.node.ts:720-744 | a failed or throwing validation aborts before any item and sends no request; after a successful one only an item can abort the run, and never with continue-on-fail |
| Execution.EntriesPairWithItems | nodes/WhatsAble/WhatsAble.node.ts:1025-1037 | a completed run has exactly one entry per item, `pairedItem` k for item k, holding the item's output or `{error}` (the latter only with continue-on-fail) |
| Execution.AbortsAtFirstFailure | nodes/WhatsAble/WhatsAble.node.ts:1038-1039 | without continue-on-fail the run aborts exactly when some item fails, at the first failing item, with its message |
| Execution.OnlySupportedPairsSend | nodes/WhatsAble/WhatsAble.node.ts:754-1023 | only the four supported (product, operation) pairs ever send, each request is the one its item built, and requests come in item order |
| Execution.SentBodiesCarryValidatedData | nodes/WhatsAble/WhatsAble.node.ts:738-836 | a template body is sent exactly for notifyer's `sendNotifyerTemplate` items and a non-template body exactly for its `sendNonTemplateMessage` items; template bodies carry the validated user id or the fixed fallback, plus the renumbered values; text bodies carry `preview_url` equal to the item's flag and the batch API key |

## Left out

- HTTP transport: URLs, headers, the `Authorization` format, `encodeURIComponent` and `returnFullResponse`. A send is an oracle; only the chosen route and the body fields are modelled.
- `JSON.parse` of the template option value is the `decode` oracle. So the serialise-then-parse round trip of a template descriptor is not modelled.
- Human-readable text is not modelled: `displayName`, descriptions and the example and help texts of fields. The media help's lower-casing of the header format is modelled only as the exception it can raise.
- `console.log` debugging output.
- `getTemplates` and `getWhatsAppNumbers`: response reshaping around two HTTP calls.
- The trigger nodes, the credential descriptors and the declarative `properties` form schema: they hold no decision logic.
- Parameter retrieval failures in the host (`getNodeParameter`, `getCredentials`): parameters are given values. The one exception is the validation call, whose throwing is modelled.
- Execution.Execute: a failed validation aborts with the remote or thrown message. The host wraps it as "API key validation failed: …" inside `NodeApiError`/`NodeOperationError`, and that wrapping is not modelled; only abort versus no abort, and which message is carried.
- Dispatch.Deliver: a failure raised with `NodeApiError` is modelled as carrying the response's own message. The host's `NodeApiError` may derive a different message, and that derivation belongs to the host runtime.
- `parseInt` of numerals beyond 2^53: they are read exactly, not with floating-point rounding. Such counts would not terminate the source's loop in practice.
- A `components.components` value that is present but not an array is modelled as absent (`None`), the same as the missing case.
- JsText.SliceInner: strings are sequences of Unicode scalar values, not UTF-16 code units, so `slice(1, -1)` drops one scalar value at each end where the source drops one code unit. A format starting or ending with a character outside the Basic Multilingual Plane is therefore handled differently (the source would keep half a surrogate pair). The formats the template service writes, such as `{b:2,m:1}`, are ASCII.
- Values the source casts with `as string` but that are not strings at run time are not modelled.
- `Object.values` order: mapper values are given already in enumeration order.
- The texts of the two `TypeError`s of a template send are the V8 wording: "Cannot convert undefined or null to object" for a null or undefined mapper value, and "Cannot read properties of null (reading 'template_id')" for a descriptor that decodes to `null`. A missing mapper object is given the first text, though V8 words that case differently.

=== FILE: api.dfy ===
/** The remote service as the node sees it: the API-key validation
    response, the send requests the node builds, and what a send call
    returns. The HTTP transport itself is not modelled; a send is an
    oracle from request to outcome. */
module Api {
  import opened Base

  /** Product discriminators returned by the validation endpoint. */
  const Notifier: string := "notifier"
  const Notifyer: string := "notifyer"
  const Whatsable: string := "whatsable"

  /** Operation values offered in the operation menu. */
  const SendMessage: string := "sendMessage"
  const SendNotifyerTemplate: string := "sendNotifyerTemplate"
  const SendNonTemplateMessage: string := "sendNonTemplateMessage"
  const SendWhatsableMessage: string := "sendWhatsableMessage"
  const ErrorValue: string := "error"

  /** The outcome of the API-key validation call: either the call (or
      reading its result) threw, or the endpoint answered. `success` is the
      truthiness of the answer's `success`; `apiUserId` is
      `apiData.user_id`, "" when missing or falsy. */
  datatype Validation =
    | ValidationThrew(message: string)
    | Validated(success: bool, message: string, product: string, apiUserId: string)

  /** Validation did not succeed: the call threw or `success` is falsy. */
  predicate ValidationFailed(v: Validation) {
    v.ValidationThrew? || !v.success
  }

  /** A non-template message body, one shape per message type. */
  datatype MessageContent =
    | TextContent(body: string, previewUrl: bool)
    | DocumentContent(link: string, caption: string, filename: string)
    | ImageContent(link: string, caption: string)
    | VideoContent(link: string, caption: string)
    | AudioContent(link: string)

  /** The `type` field of a non-template body. */
  function TypeTag(c: MessageContent): string {
    match c
    case TextContent(_, _) => "text"
    case DocumentContent(_, _, _) => "document"
    case ImageContent(_, _) => "image"
    case VideoContent(_, _) => "video"
    case AudioContent(_) => "audio"
  }

  /** Fixed fields of every non-template body: `recipient_type` and
      `messaging_product`. */
  const IndividualRecipient: string := "individual"
  const WhatsappProduct: string := "whatsapp"

  /** The body of each send request the node can issue. Variables of a
      template send are kept as an ordered list of (key, value) pairs, the
      insertion order of the JavaScript object. */
  datatype Request =
    | NotifierMessage(phone: string, text: string, attachment: string, filename: string)
    | TemplateMessage(userId: string, template: Option<string>,
                      variables: seq<(string, string)>, currentRecipient: string)
    | NonTemplateMessage(to: string, content: MessageContent, apiKey: string,
                         recipientType: string, messagingProduct: string)
    | WhatsableMessage(to: string, text: string, attachment: string, filename: string, apiKey: string)

  /** A response of the service. `message` is its top-level `message` and
      `bodyMessage` its `body.message` ("" when missing or falsy);
      `payload` stands for the rest of the response, which the node passes
      through untouched. */
  datatype Reply = Reply(message: string, bodyMessage: string, payload: string)

  /** What a send call does: it throws (network error, 4xx/5xx) or
      returns a response, `None` standing for a falsy one. */
  datatype HttpOutcome = HttpThrew(message: string) | HttpReturned(reply: Option<Reply>)
}

=== FILE: base.dfy ===
/** Small shared vocabulary for the WhatsAble node model. */
module Base {

  /** A value that may be missing: JavaScript's `undefined` (or a value the
      code cannot use) is `None`. */
  datatype Option<+T> = None | Some(value: T)
}

=== FILE: dispatch.dfy ===
/** The work `execute` does for one input item: pick the route, build the
    request body from the item's parameters, call the service, and turn
    the answer into the item's output or an item error. */
module Dispatch {
  import opened Base
  import opened TemplateFields
  import opened Api
  import opened Operations

  /** Parameters of the notifier `sendMessage` operation. */
  datatype NotifierParams = NotifierParams(recipient: string, message: string, attachment: string, filename: string)

  /** Parameters of the notifyer template operation. `template` is the
      option value of the chosen template; `variables` are the values of
      the resource mapper in enumeration order, `None` when the mapper
      value is null or undefined. */
  datatype TemplateParams = TemplateParams(recipient: string, template: string, variables: Option<seq<string>>)

  /** Parameters of the notifyer non-template operation. */
  datatype NonTemplateParams = NonTemplateParams(
    recipient: string,
    messageType: string,
    messageContent: string,
    enableLinkPreview: bool,
    documentUrl: string,
    documentCaption: string,
    documentFilename: string,
    imageUrl: string,
    imageCaption: string,
    videoUrl: string,
    videoCaption: string,
    audioUrl: string)

  /** Parameters of the whatsable `sendWhatsableMessage` operation. */
  datatype WhatsableParams = WhatsableParams(to: string, text: string, attachment: string, filename: string)

  /** The node parameters of one input item. */
  datatype ItemParams = ItemParams(
    operation: string,
    notifier: NotifierParams,
    template: TemplateParams,
    nonTemplate: NonTemplateParams,
    whatsable: WhatsableParams)

  /** What the batch-level validation leaves for the items: the API key,
      the product and the user id ("" unless the product is notifyer and
      the response carried a user id). */
  datatype Context = Context(apiKey: string, product: string, userId: string)

  /** The user id sent with every template message when validation did
      not provide one. */
  const FallbackUserId: string := "efa5aa36-9b42-445c-a6f6-11a26fda86e9"

  /** The message of the TypeError `Object.values` throws on null or
      undefined. */
  const NullValuesMessage: string := "Cannot convert undefined or null to object"

  /** The message of the TypeError raised by reading `template_id` of a
      descriptor that decoded to `null`. */
  const NullTemplateIdMessage: string := "Cannot read properties of null (reading 'template_id')"

  /** The output of an item when no response is available. */
  datatype OutJson =
    | Response(reply: Reply)
    | Fallback(success: bool, message: string)
    | ErrorJson(error: string)

  const NotImplemented: OutJson := Fallback(false, "Operation not implemented")

  /** An item either produces its output or fails with a message. */
  datatype ItemResult = ItemOk(json: OutJson) | ItemErr(message: string)

  /** The request an item issued, if any, and how it ended. */
  datatype ItemStep = ItemStep(sent: Option<Request>, result: ItemResult)

  /** The context established by a successful validation. */
  function ValidatedContext(apiKey: string, v: Validation): (ctx: Context)
    requires !ValidationFailed(v)
    ensures ctx.apiKey == apiKey && ctx.product == v.product
    ensures ctx.userId != "" <==> v.product == Notifyer && v.apiUserId != ""
    ensures ctx.userId != "" ==> ctx.userId == v.apiUserId
  {
    Context(apiKey, v.product, if v.product == Notifyer && v.apiUserId != "" then v.apiUserId else "")
  }

  /** `userId || FallbackUserId`. */
  function TemplateUserId(ctx: Context): (u: string)
    ensures u != ""
    ensures ctx.userId != "" ==> u == ctx.userId
  {
    if ctx.userId != "" then ctx.userId else FallbackUserId
  }

  /** The template variables object: the `k`-th mapper value, in
      enumeration order, under the key `body{k}`, whatever key it had in
      the mapper. */
  function Renumber(values: seq<string>): (r: seq<(string, string)>)
    ensures |r| == |values|
    ensures forall j :: 0 <= j < |r| ==> r[j] == (BodyId(j + 1), values[j])
  {
    if |values| == 0 then []
    else Renumber(values[..|values| - 1]) + [(BodyId(|values|), values[|values| - 1])]
  }

  /** Looking a key up in an object built as an ordered list of pairs. */
  function Lookup(vars: seq<(string, string)>, key: string): (r: Option<string>)
    ensures r.None? <==> forall j :: 0 <= j < |vars| ==> vars[j].0 != key
    ensures r.Some? ==> exists j :: 0 <= j < |vars| && vars[j] == (key, r.value)
  {
    if |vars| == 0 then None
    else if vars[0].0 == key then Some(vars[0].1)
    else
      var r := Lookup(vars[1..], key);
      assert r.Some? ==> exists j :: 0 <= j < |vars| && vars[j] == (key, r.value) by {
        if r.Some? {
          var j :| 0 <= j < |vars[1..]| && vars[1..][j] == (key, r.value);
          assert vars[j + 1] == (key, r.value);
        }
      }
      assert r.None? ==> forall j :: 0 <= j < |vars| ==> vars[j].0 != key by {
        if r.None? {
          forall j | 0 <= j < |vars|
            ensures vars[j].0 != key
          {
            if j > 0 {
              assert vars[j] == vars[1..][j - 1];
            }
          }
        }
      }
      r
  }

  /** The variables object has no repeated key, and reading `body{k}`
      from it gives the `k`-th value; no other key is present. */
  lemma RenumberLookup(values: seq<string>, key: string)
    ensures forall a, b :: 0 <= a < b < |values| ==> Renumber(values)[a].0 != Renumber(values)[b].0
    ensures forall k :: 1 <= k <= |values| ==> Lookup(Renumber(values), BodyId(k)) == Some(values[k - 1])
    ensures (forall k :: 1 <= k <= |values| ==> key != BodyId(k)) ==> Lookup(Renumber(values), key).None?
  {
    var r := Renumber(values);
    forall a, b | 0 <= a < b < |values|
      ensures r[a].0 != r[b].0
    {
      if r[a].0 == r[b].0 {
        BodyIdInjective(a + 1, b + 1);
      }
    }
    forall k | 1 <= k <= |values|
      ensures Lookup(r, BodyId(k)) == Some(values[k - 1])
    {
      var l := Lookup(r, BodyId(k));
      assert r[k - 1].0 == BodyId(k);
      var j :| 0 <= j < |r| && r[j] == (BodyId(k), l.value);
      BodyIdInjective(j + 1, k);
    }
    if forall k :: 1 <= k <= |values| ==> key != BodyId(k) {
      forall j | 0 <= j < |r|
        ensures r[j].0 != key
      {
        assert r[j].0 == BodyId(j + 1);
      }
    }
  }

  /** The non-template body for the chosen message type: one for each of
      text, document, image, video and audio, none for any other type; its
      `type` tag is the chosen message type, and it carries the item's
      parameters of that type. */
  function ContentOf(p: NonTemplateParams): (r: Option<MessageContent>)
    ensures r.Some? <==> p.messageType in {"text", "document", "image", "video", "audio"}
    ensures r.Some? ==> TypeTag(r.value) == p.messageType
    ensures r.Some? && r.value.TextContent? ==>
              r.value.body == p.messageContent && r.value.previewUrl == p.enableLinkPreview
    ensures r.Some? && r.value.DocumentContent? ==>
              r.value.link == p.documentUrl && r.value.caption == p.documentCaption &&
              r.value.filename == p.documentFilename
    ensures r.Some? && r.value.ImageContent? ==> r.value.link == p.imageUrl && r.value.caption == p.imageCaption
    ensures r.Some? && r.value.VideoContent? ==> r.value.link == p.videoUrl && r.value.caption == p.videoCaption
    ensures r.Some? && r.value.AudioContent? ==> r.value.link == p.audioUrl
  {
    if p.messageType == "text" then Some(TextContent(p.messageContent, p.enableLinkPreview))
    else if p.messageType == "document" then Some(DocumentContent(p.documentUrl, p.documentCaption, p.documentFilename))
    else if p.messageType == "image" then Some(ImageContent(p.imageUrl, p.imageCaption))
    else if p.messageType == "video" then Some(VideoContent(p.videoUrl, p.videoCaption))
    else if p.messageType == "audio" then Some(AudioContent(p.audioUrl))
    else None
  }

  /** The error message for a pair the routing table does not know. */
  function UnsupportedMessage(operation: string, product: string): string {
    "Operation " + operation + " is not supported for product type " + product
  }

  /** Whether the reply's messages make a non-template send fail: a
      truthy `body.message`, or else a truthy `message`. */
  predicate ReplyReportsError(reply: Option<Reply>) {
    reply.Some? && (reply.value.bodyMessage != "" || reply.value.message != "")
  }

  /** Issue `req` for item `i` and read the answer. Non-template sends
      (`checkMessages`) treat a truthy `body.message`, then a truthy
      `message`, in the response as an error; other sends fail only when
      the call throws. The request is recorded as sent however the call
      ends; a successful item outputs the response, or the not-implemented
      object when the response is falsy. */
  function Deliver(i: nat, req: Request, checkMessages: bool, send: (nat, Request) -> HttpOutcome): (r: ItemStep)
    ensures r.sent == Some(req)
    ensures send(i, req).HttpThrew? ==> r.result == ItemErr(send(i, req).message)
    ensures r.result.ItemErr? <==>
              send(i, req).HttpThrew? || (checkMessages && ReplyReportsError(send(i, req).reply))
    ensures send(i, req) == HttpReturned(None) ==> r.result == ItemOk(NotImplemented)
    ensures r.result.ItemOk? && r.result.json.Response? ==> send(i, req) == HttpReturned(Some(r.result.json.reply))
    ensures r.result.ItemOk? && !r.result.json.Response? ==> r.result.json == NotImplemented && send(i, req) == HttpReturned(None)
    ensures checkMessages && send(i, req).HttpReturned? && send(i, req).reply.Some? ==>
              var rep := send(i, req).reply.value;
              && (rep.bodyMessage != "" ==> r.result == ItemErr(rep.bodyMessage))
              && (rep.bodyMessage == "" && rep.message != "" ==> r.result == ItemErr(rep.message))
  {
    match send(i, req)
    case HttpThrew(m) => ItemStep(Some(req), ItemErr(m))
    case HttpReturned(reply) =>
      if checkMessages && reply.Some? && reply.value.bodyMessage != "" then
        ItemStep(Some(req), ItemErr(reply.value.bodyMessage))
      else if checkMessages && reply.Some? && reply.value.message != "" then
        ItemStep(Some(req), ItemErr(reply.value.message))
      else if reply.Some? then ItemStep(Some(req), ItemOk(Response(reply.value)))
      else ItemStep(Some(req), ItemOk(NotImplemented))
  }

  /** The template send for an item, in the order of the source: the
      option value is decoded (a syntax error fails the item), the mapper
      values are renumbered (null or undefined fails the item), then the
      template id is read (a `null` descriptor fails the item). */
  function TemplateStep(i: nat, p: TemplateParams, ctx: Context,
                        send: (nat, Request) -> HttpOutcome, decode: string -> Decoded): ItemStep
  {
    match decode(p.template)
    case Malformed(m) => ItemStep(None, ItemErr(m))
    case _ =>
      match p.variables
      case None => ItemStep(None, ItemErr(NullValuesMessage))
      case Some(values) =>
        match decode(p.template)
        case Parsed(data) =>
          Deliver(i, TemplateMessage(TemplateUserId(ctx), data.templateId, Renumber(values), p.recipient), false, send)
        case _ => ItemStep(None, ItemErr(NullTemplateIdMessage))
  }

  /** The request of a non-template item. */
  function NonTemplateRequest(p: NonTemplateParams, c: MessageContent, apiKey: string): Request {
    NonTemplateMessage(p.recipient, c, apiKey, IndividualRecipient, WhatsappProduct)
  }

  /** The body of the `try` block for item `i`. A request is issued for
      every supported (product, operation) pair, except a template item
      whose descriptor or mapper value cannot be read and a non-template
      item of an unknown message type; every other pair fails with the
      "not supported" message and sends nothing. Only non-template sends
      look at the messages of the reply; the other sends fail only when
      the call throws. An item that sent a request ends as `Deliver` ends
      it: a successful one outputs the service's response. */
  function ProcessItem(i: nat, item: ItemParams, ctx: Context,
                       send: (nat, Request) -> HttpOutcome, decode: string -> Decoded): (r: ItemStep)
    ensures r.sent.Some? ==> (ctx.product, item.operation) in SupportedPairs
    ensures r.sent.Some? ==>
              r == Deliver(i, r.sent.value, RouteOf(ctx.product, item.operation) == NotifyerNonTemplate, send)
    ensures r.sent.Some? && r.result.ItemOk? && r.result.json.Response? ==>
              send(i, r.sent.value) == HttpReturned(Some(r.result.json.reply))
    ensures r.result.ItemOk? && !r.result.json.Response? ==> r.result.json == NotImplemented
    ensures RouteOf(ctx.product, item.operation) == Unsupported ==>
              r == ItemStep(None, ItemErr(UnsupportedMessage(item.operation, ctx.product)))
    ensures RouteOf(ctx.product, item.operation) in {NotifierSend, WhatsableSend} ==>
              r.sent.Some? && (r.result.ItemErr? <==> send(i, r.sent.value).HttpThrew?)
    ensures RouteOf(ctx.product, item.operation) == NotifyerTemplate ==>
              var d := decode(item.template.template);
              && (d.Malformed? ==> r == ItemStep(None, ItemErr(d.message)))
              && (!d.Malformed? && item.template.variables.None? ==> r == ItemStep(None, ItemErr(NullValuesMessage)))
              && (d.NullValue? && item.template.variables.Some? ==> r == ItemStep(None, ItemErr(NullTemplateIdMessage)))
              && (d.Parsed? && item.template.variables.Some? ==>
                    r.sent.Some? && (r.result.ItemErr? <==> send(i, r.sent.value).HttpThrew?))
    ensures RouteOf(ctx.product, item.operation) == NotifyerNonTemplate && ContentOf(item.nonTemplate).None? ==>
              r == ItemStep(None, ItemOk(NotImplemented))
    ensures RouteOf(ctx.product, item.operation) == NotifyerNonTemplate && ContentOf(item.nonTemplate).Some? ==>
              && r.sent.Some?
              && (r.result.ItemErr? <==>
                    send(i, r.sent.value).HttpThrew? || ReplyReportsError(send(i, r.sent.value).reply))
  {
    match RouteOf(ctx.product, item.operation)
    case Unsupported =>
      ItemStep(None, ItemErr(UnsupportedMessage(item.operation, ctx.product)))
    case NotifierSend =>
      var p := item.notifier;
      Deliver(i, NotifierMessage(p.recipient, p.message, p.attachment, p.filename), false, send)
    case NotifyerTemplate =>
      TemplateStep(i, item.template, ctx, send, decode)
    case NotifyerNonTemplate =>
      (match ContentOf(item.nonTemplate)
       case None => ItemStep(None, ItemOk(NotImplemented))
       case Some(c) => Deliver(i, NonTemplateRequest(item.nonTemplate, c, ctx.apiKey), true, send))
    case WhatsableSend =>
      var p := item.whatsable;
      Deliver(i, WhatsableMessage(p.to, p.text, p.attachment, p.filename, ctx.apiKey), false, send)
  }

  /** The body of each request is built from its item's parameters along
      its route: the notifier and whatsable bodies copy the item's
      recipient, text, attachment and filename; the template body carries
      the validated user id (or the fallback), the descriptor's template id
      and the renumbered mapper values; the non-template body carries the
      recipient, the content of the chosen type and the fixed recipient
      type and messaging product; the non-template and whatsable bodies
      carry the batch's API key. */
  lemma RequestFollowsRoute(i: nat, item: ItemParams, ctx: Context,
                            send: (nat, Request) -> HttpOutcome, decode: string -> Decoded)
    requires ProcessItem(i, item, ctx, send, decode).sent.Some?
    ensures var req := ProcessItem(i, item, ctx, send, decode).sent.value;
            var route := RouteOf(ctx.product, item.operation);
            && (route == NotifierSend <==> req.NotifierMessage?)
            && (route == NotifyerTemplate <==> req.TemplateMessage?)
            && (route == NotifyerNonTemplate <==> req.NonTemplateMessage?)
            && (route == WhatsableSend <==> req.WhatsableMessage?)
            && (req.NotifierMessage? ==>
                  && req.phone == item.notifier.recipient
                  && req.text == item.notifier.message
                  && req.attachment == item.notifier.attachment
                  && req.filename == item.notifier.filename)
            && (req.TemplateMessage? ==>
                  && req.userId == TemplateUserId(ctx)
                  && decode(item.template.template).Parsed?
                  && req.template == decode(item.template.template).data.templateId
                  && item.template.variables.Some?
                  && req.variables == Renumber(item.template.variables.value)
                  && req.currentRecipient == item.template.recipient)
            && (req.NonTemplateMessage? ==>
                  && req.apiKey == ctx.apiKey
                  && req.to == item.nonTemplate.recipient
                  && Some(req.content) == ContentOf(item.nonTemplate)
                  && req.recipientType == IndividualRecipient
                  && req.messagingProduct == WhatsappProduct)
            && (req.WhatsableMessage? ==>
                  && req.to == item.whatsable.to
                  && req.text == item.whatsable.text
                  && req.attachment == item.whatsable.attachment
                  && req.filename == item.whatsable.filename
                  && req.apiKey == ctx.apiKey)
  {
  }

  /** The keys of the template variables are the ids of the body fields
      the template's `b:N` part produced, position by position, when the
      user filled exactly those fields. */
  lemma RenumberMatchesBodyFields(values: seq<string>)
    ensures var vars := Renumber(values);
            var fields := BodyFields(|values|);
            |vars| == |fields| && forall j :: 0 <= j < |vars| ==> vars[j].0 == fields[j].id
  {
  }

  /** Renumbering ignores the mapper's own keys: for a template with one
      body variable and a media header, the media URL is sent under
      `body2`, not under `media`. */
  lemma MediaValueSentAsBodyVariable(text: string, mediaUrl: string, comps: Option<seq<Component>>)
    requires BodyExampleReadable(comps) && !MediaLookupThrows(comps)
    ensures var ids := ExpectedFields([BodyPart(1), MediaPart(false)], comps);
            |ids| == 2 && ids[1].id == MediaId
    ensures Renumber([text, mediaUrl])[1] == (BodyId(2), mediaUrl)
    ensures BodyId(2) != MediaId
  {
    var ps := [BodyPart(1), MediaPart(false)];
    assert ps[1..] == [MediaPart(false)];
    assert ExpectedFields(ps[1..][1..], comps) == [];
    assert BodyId(2)[0] == 'b';
  }
}

=== FILE: execution.dfy ===
/** `execute`: validate the API key once for the batch, then process the
    input items strictly in order, each producing one output entry or, when
    continue-on-fail is off, ending the run with its error. */
module Execution {
  import opened Base
  import opened Api
  import opened Operations
  import opened TemplateFields
  import opened Dispatch

  /** One output item: its JSON and the index of the input item it pairs
      with (`pairedItem.item`). */
  datatype Entry = Entry(json: OutJson, pairedItem: nat)

  /** Why a run ended early: the batch-level validation failed, or item
      `index` failed while continue-on-fail was off. */
  datatype Abort = ValidationAborted(message: string) | ItemAborted(index: nat, message: string)

  datatype Outcome = Completed(entries: seq<Entry>) | Aborted(cause: Abort)

  /** A request issued for input item `index`. */
  datatype Sent = Sent(index: nat, request: Request)

  /** A run: how it ended and every request it issued, in order. */
  datatype Run = Run(outcome: Outcome, sent: seq<Sent>)

  /** The JSON an item contributes: its output, or `{error: message}`. */
  function EntryJson(step: ItemStep): (j: OutJson)
    ensures step.result.ItemErr? ==> j == ErrorJson(step.result.message)
    ensures step.result.ItemOk? ==> j == step.result.json
  {
    match step.result
    case ItemOk(json) => json
    case ItemErr(m) => ErrorJson(m)
  }

  /** The requests an item issued, tagged with its index. */
  function SentBy(i: nat, step: ItemStep): (s: seq<Sent>)
    ensures |s| <= 1
    ensures |s| == 1 <==> step.sent.Some?
    ensures forall k :: 0 <= k < |s| ==> s[k] == Sent(i, step.sent.value)
  {
    match step.sent
    case None => []
    case Some(req) => [Sent(i, req)]
  }

  /** How many items the run got to: all of them, or up to and including
      the one that aborted it. */
  function Reached(r: Run, count: nat): nat {
    match r.outcome
    case Completed(_) => count
    case Aborted(cause) => if cause.ItemAborted? then cause.index + 1 else 0
  }

  /** What each item does when the loop reaches it. Each step depends
      only on the item, its index, the validated context and the oracles,
      so the loop below reads them off this list. */
  function Steps(items: seq<ItemParams>, ctx: Context,
                 send: (nat, Request) -> HttpOutcome, decode: string -> Decoded): (r: seq<ItemStep>)
    ensures |r| == |items|
    ensures forall k :: 0 <= k < |items| ==> r[k] == ProcessItem(k, items[k], ctx, send, decode)
  {
    seq(|items|, k requires 0 <= k < |items| => ProcessItem(k, items[k], ctx, send, decode))
  }

  /** The `for` loop from item `from` on, with the `try`/`catch` of each
      item. Each item contributes exactly one entry paired with its own
      index, `{error}` when it failed; with continue-on-fail the run always
      completes, without it the run stops at the first failing item with
      that item's message. */
  function RunItems(steps: seq<ItemStep>, from: nat, continueOnFail: bool): (r: Run)
    requires from <= |steps|
    ensures continueOnFail ==> r.outcome.Completed?
    ensures r.outcome.Completed? ==>
              && |r.outcome.entries| == |steps| - from
              && forall k :: 0 <= k < |r.outcome.entries| ==>
                   r.outcome.entries[k] == Entry(EntryJson(steps[from + k]), from + k)
    ensures r.outcome.Aborted? ==>
              && !continueOnFail
              && r.outcome.cause.ItemAborted?
              && from <= r.outcome.cause.index < |steps|
              && steps[r.outcome.cause.index].result == ItemErr(r.outcome.cause.message)
              && forall k :: from <= k < r.outcome.cause.index ==> steps[k].result.ItemOk?
    decreases |steps| - from
  {
    if from == |steps| then Run(Completed([]), [])
    else
      var step := steps[from];
      var mine := SentBy(from, step);
      if step.result.ItemErr? && !continueOnFail then
        Run(Aborted(ItemAborted(from, step.result.message)), mine)
      else
        var rest := RunItems(steps, from + 1, continueOnFail);
        var entry := Entry(EntryJson(step), from);
        var outcome := match rest.outcome
          case Completed(es) => Completed([entry] + es)
          case Aborted(cause) => Aborted(cause);
        Run(outcome, mine + rest.sent)
  }

  /** Without continue-on-fail, the run completes exactly when no item
      fails. */
  lemma {:induction false} CompletesIffNoItemFails(steps: seq<ItemStep>, from: nat)
    requires from <= |steps|
    ensures RunItems(steps, from, false).outcome.Completed? <==>
            forall k :: from <= k < |steps| ==> steps[k].result.ItemOk?
    decreases |steps| - from
  {
    if from < |steps| && steps[from].result.ItemOk? {
      CompletesIffNoItemFails(steps, from + 1);
    }
  }

  /** Every request of a run was issued by the item it is tagged with,
      an item the run reached. */
  lemma {:induction false} SentRequestsComeFromReachedItems(steps: seq<ItemStep>, from: nat, continueOnFail: bool)
    requires from <= |steps|
    ensures forall k :: 0 <= k < |RunItems(steps, from, continueOnFail).sent| ==>
              && from <= RunItems(steps, from, continueOnFail).sent[k].index
                      < Reached(RunItems(steps, from, continueOnFail), |steps|)
              && steps[RunItems(steps, from, continueOnFail).sent[k].index].sent
                 == Some(RunItems(steps, from, continueOnFail).sent[k].request)
    decreases |steps| - from
  {
    var r := RunItems(steps, from, continueOnFail);
    if from < |steps| {
      var mine := SentBy(from, steps[from]);
      if !(steps[from].result.ItemErr? && !continueOnFail) {
        var rest := RunItems(steps, from + 1, continueOnFail);
        SentRequestsComeFromReachedItems(steps, from + 1, continueOnFail);
        assert r.sent == mine + rest.sent;
        assert Reached(r, |steps|) == Reached(rest, |steps|);
        forall k | 0 <= k < |r.sent|
          ensures from <= r.sent[k].index < Reached(r, |steps|)
          ensures steps[r.sent[k].index].sent == Some(r.sent[k].request)
        {
          if k >= |mine| {
            assert r.sent[k] == rest.sent[k - |mine|];
          }
        }
      }
    }
  }

  /** Every request of a run from item `from` on is tagged with an index
      at least `from`. */
  lemma SentIndicesFrom(steps: seq<ItemStep>, from: nat, continueOnFail: bool)
    requires from <= |steps|
    ensures forall k :: 0 <= k < |RunItems(steps, from, continueOnFail).sent| ==>
              from <= RunItems(steps, from, continueOnFail).sent[k].index
  {
    SentRequestsComeFromReachedItems(steps, from, continueOnFail);
  }

  /** Requests are issued in item order, at most one per item. */
  lemma {:induction false} SentRequestsInItemOrder(steps: seq<ItemStep>, from: nat, continueOnFail: bool)
    requires from <= |steps|
    ensures forall a, b :: 0 <= a < b < |RunItems(steps, from, continueOnFail).sent| ==>
              RunItems(steps, from, continueOnFail).sent[a].index < RunItems(steps, from, continueOnFail).sent[b].index
    decreases |steps| - from
  {
    var r := RunItems(steps, from, continueOnFail);
    if from < |steps| {
      var mine := SentBy(from, steps[from]);
      if !(steps[from].result.ItemErr? && !continueOnFail) {
        var rest := RunItems(steps, from + 1, continueOnFail);
        SentRequestsInItemOrder(steps, from + 1, continueOnFail);
        SentIndicesFrom(steps, from + 1, continueOnFail);
        var later := rest.sent;
        assert r.sent == mine + later;
        forall a, b | 0 <= a < b < |r.sent|
          ensures r.sent[a].index < r.sent[b].index
        {
          assert r.sent[b] == later[b - |mine|];
          if a >= |mine| {
            assert r.sent[a] == later[a - |mine|];
          } else {
            assert r.sent[a].index == from;
          }
        }
      }
    }
  }

  /** Every item the run reached that issued a request has it recorded. */
  lemma {:induction false} ReachedItemsRequestsAreSent(steps: seq<ItemStep>, from: nat, continueOnFail: bool)
    requires from <= |steps|
    ensures var r := RunItems(steps, from, continueOnFail);
            forall k :: from <= k < Reached(r, |steps|) && steps[k].sent.Some? ==>
              Sent(k, steps[k].sent.value) in r.sent
    decreases |steps| - from
  {
    var r := RunItems(steps, from, continueOnFail);
    if from < |steps| {
      var mine := SentBy(from, steps[from]);
      if !(steps[from].result.ItemErr? && !continueOnFail) {
        var rest := RunItems(steps, from + 1, continueOnFail);
        ReachedItemsRequestsAreSent(steps, from + 1, continueOnFail);
        assert r.sent == mine + rest.sent;
        assert Reached(r, |steps|) == Reached(rest, |steps|);
        forall k | from <= k < Reached(r, |steps|) && steps[k].sent.Some?
          ensures Sent(k, steps[k].sent.value) in r.sent
        {
          if k == from {
            assert mine[0] == Sent(k, steps[k].sent.value);
          } else {
            assert Sent(k, steps[k].sent.value) in rest.sent;
          }
        }
      } else {
        assert Reached(r, |steps|) == from + 1;
        if steps[from].sent.Some? {
          assert r.sent[0] == Sent(from, steps[from].sent.value);
        }
      }
    }
  }

  /** `execute`: a failed validation aborts the run before any item is
      looked at and without any request being sent; otherwise the items
      are processed in order under the validated context. */
  function Execute(apiKey: string, v: Validation, items: seq<ItemParams>, continueOnFail: bool,
                   send: (nat, Request) -> HttpOutcome, decode: string -> Decoded): (r: Run)
    ensures ValidationFailed(v) ==> r == Run(Aborted(ValidationAborted(v.message)), [])
    ensures !ValidationFailed(v) ==> r.outcome.Aborted? ==> r.outcome.cause.ItemAborted?
    ensures continueOnFail && !ValidationFailed(v) ==> r.outcome.Completed?
  {
    if ValidationFailed(v) then Run(Aborted(ValidationAborted(v.message)), [])
    else RunItems(Steps(items, ValidatedContext(apiKey, v), send, decode), 0, continueOnFail)
  }

  /** Each input item contributes exactly one output entry, paired with
      its own index, holding the item's output or `{error: message}` when
      it failed (the latter only with continue-on-fail). */
  lemma EntriesPairWithItems(apiKey: string, v: Validation, items: seq<ItemParams>, continueOnFail: bool,
                             send: (nat, Request) -> HttpOutcome, decode: string -> Decoded)
    requires !ValidationFailed(v)
    requires Execute(apiKey, v, items, continueOnFail, send, decode).outcome.Completed?
    ensures var es := Execute(apiKey, v, items, continueOnFail, send, decode).outcome.entries;
            var ctx := ValidatedContext(apiKey, v);
            && |es| == |items|
            && forall k :: 0 <= k < |es| ==>
                 && es[k].pairedItem == k
                 && (ProcessItem(k, items[k], ctx, send, decode).result.ItemOk? ==>
                       es[k].json == ProcessItem(k, items[k], ctx, send, decode).result.json)
                 && (ProcessItem(k, items[k], ctx, send, decode).result.ItemErr? ==>
                       continueOnFail &&
                       es[k].json == ErrorJson(ProcessItem(k, items[k], ctx, send, decode).result.message))
  {
    var ctx := ValidatedContext(apiKey, v);
    var steps := Steps(items, ctx, send, decode);
    if !continueOnFail {
      CompletesIffNoItemFails(steps, 0);
    }
  }

  /** Without continue-on-fail, the run aborts exactly when some item
      fails, and then at the first failing item, with its message. */
  lemma AbortsAtFirstFailure(apiKey: string, v: Validation, items: seq<ItemParams>,
                             send: (nat, Request) -> HttpOutcome, decode: string -> Decoded)
    requires !ValidationFailed(v)
    ensures var r := Execute(apiKey, v, items, false, send, decode);
            var ctx := ValidatedContext(apiKey, v);
            && (r.outcome.Aborted? <==>
                  exists k :: 0 <= k < |items| && ProcessItem(k, items[k], ctx, send, decode).result.ItemErr?)
            && (r.outcome.Aborted? ==>
                  && r.outcome.cause.ItemAborted?
                  && r.outcome.cause.index < |items|
                  && ProcessItem(r.outcome.cause.index, items[r.outcome.cause.index], ctx, send, decode).result
                     == ItemErr(r.outcome.cause.message)
                  && forall k :: 0 <= k < r.outcome.cause.index ==>
                       ProcessItem(k, items[k], ctx, send, decode).result.ItemOk?)
  {
    var ctx := ValidatedContext(apiKey, v);
    var steps := Steps(items, ctx, send, decode);
    CompletesIffNoItemFails(steps, 0);
  }

  /** Only the four supported (product, operation) pairs ever issue a
      request, each request is the one its item built, and requests come
      in item order. */
  lemma OnlySupportedPairsSend(apiKey: string, v: Validation, items: seq<ItemParams>, continueOnFail: bool,
                               send: (nat, Request) -> HttpOutcome, decode: string -> Decoded)
    ensures var r := Execute(apiKey, v, items, continueOnFail, send, decode);
            && (forall k :: 0 <= k < |r.sent| ==>
                  && r.sent[k].index < |items|
                  && (v.product, items[r.sent[k].index].operation) in SupportedPairs
                  && ProcessItem(r.sent[k].index, items[r.sent[k].index], ValidatedContext(apiKey, v), send, decode).sent
                     == Some(r.sent[k].request))
            && (forall a, b :: 0 <= a < b < |r.sent| ==> r.sent[a].index < r.sent[b].index)
  {
    if !ValidationFailed(v) {
      var ctx := ValidatedContext(apiKey, v);
      var steps := Steps(items, ctx, send, decode);
      SentRequestsComeFromReachedItems(steps, 0, continueOnFail);
      SentRequestsInItemOrder(steps, 0, continueOnFail);
      var r := RunItems(steps, 0, continueOnFail);
      forall k | 0 <= k < |r.sent|
        ensures (v.product, items[r.sent[k].index].operation) in SupportedPairs
      {
        assert steps[r.sent[k].index].sent.Some?;
      }
    }
  }

  /** The bodies the run sends carry what the batch validated: a
      template body is sent exactly for the notifyer's template operation
      and a non-template body exactly for its non-template operation; every
      template body's `user_id` is the validated notifyer user id when
      the validation response had one and the fixed fallback otherwise,
      with the item's mapper values renumbered `body1..bodyK`; every text
      body's `preview_url` is the item's link-preview flag. */
  lemma SentBodiesCarryValidatedData(apiKey: string, v: Validation, items: seq<ItemParams>, continueOnFail: bool,
                                     send: (nat, Request) -> HttpOutcome, decode: string -> Decoded)
    requires !ValidationFailed(v)
    ensures var r := Execute(apiKey, v, items, continueOnFail, send, decode);
            forall k :: 0 <= k < |r.sent| ==>
              r.sent[k].index < |items| &&
              var req := r.sent[k].request;
              var item := items[r.sent[k].index];
              && (req.TemplateMessage? <==> v.product == Notifyer && item.operation == SendNotifyerTemplate)
              && (req.NonTemplateMessage? <==> v.product == Notifyer && item.operation == SendNonTemplateMessage)
              && (req.TemplateMessage? ==>
                    && req.userId == (if v.apiUserId != "" then v.apiUserId else FallbackUserId)
                    && item.template.variables.Some?
                    && req.variables == Renumber(item.template.variables.value))
              && (req.NonTemplateMessage? && req.content.TextContent? ==>
                    && req.content.previewUrl == item.nonTemplate.enableLinkPreview
                    && req.apiKey == apiKey)
  {
    var ctx := ValidatedContext(apiKey, v);
    OnlySupportedPairsSend(apiKey, v, items, continueOnFail, send, decode);
    var r := Execute(apiKey, v, items, continueOnFail, send, decode);
    forall k | 0 <= k < |r.sent|
      ensures r.sent[k].index < |items| &&
              var req := r.sent[k].request;
              var item := items[r.sent[k].index];
              && (req.TemplateMessage? <==> v.product == Notifyer && item.operation == SendNotifyerTemplate)
              && (req.NonTemplateMessage? <==> v.product == Notifyer && item.operation == SendNonTemplateMessage)
              && (req.TemplateMessage? ==>
                    && req.userId == (if v.apiUserId != "" then v.apiUserId else FallbackUserId)
                    && item.template.variables.Some?
                    && req.variables == Renumber(item.template.variables.value))
              && (req.NonTemplateMessage? && req.content.TextContent? ==>
                    && req.content.previewUrl == item.nonTemplate.enableLinkPreview
                    && req.apiKey == apiKey)
    {
      var i := r.sent[k].index;
      RequestFollowsRoute(i, items[i], ctx, send, decode);
    }
  }
}

=== FILE: js_text.dfy ===
/** The few JavaScript string built-ins the node relies on, with their
    ECMAScript semantics written out: `String.prototype.trim`,
    `String.prototype.slice(1, -1)`, `String.prototype.split` with a
    one-character separator, global `parseInt` without a radix, and the
    decimal rendering of a positive integer inside a template literal. */
module JsText {
  import opened Base

  /** ECMAScript WhiteSpace and LineTerminator code points: the characters
      that `trim` and `parseInt` skip. */
  predicate IsJsSpace(c: char) {
    || c == '\U{9}' || c == '\U{A}' || c == '\U{B}' || c == '\U{C}' || c == '\U{D}'
    || c == ' ' || c == '\U{A0}' || c == '\U{1680}'
    || ('\U{2000}' <= c <= '\U{200A}')
    || c == '\U{2028}' || c == '\U{2029}' || c == '\U{202F}' || c == '\U{205F}'
    || c == '\U{3000}' || c == '\U{FEFF}'
  }

  /** `s` with its leading white space removed. */
  function TrimStart(s: string): (r: string)
    ensures |r| <= |s| && r == s[|s| - |r|..]
    ensures forall k :: 0 <= k < |s| - |r| ==> IsJsSpace(s[k])
    ensures r == [] || !IsJsSpace(r[0])
  {
    if |s| > 0 && IsJsSpace(s[0]) then TrimStart(s[1..]) else s
  }

  /** `s` with its trailing white space removed. */
  function TrimEnd(s: string): (r: string)
    ensures |r| <= |s| && r == s[..|r|]
    ensures forall k :: |r| <= k < |s| ==> IsJsSpace(s[k])
    ensures r == [] || !IsJsSpace(r[|r| - 1])
  {
    if |s| > 0 && IsJsSpace(s[|s| - 1]) then TrimEnd(s[..|s| - 1]) else s
  }

  /** `s.trim()`. */
  function Trim(s: string): string {
    TrimEnd(TrimStart(s))
  }

  /** Trimming leaves a string alone when it neither starts nor ends with
      white space. */
  lemma TrimKeepsUnpadded(s: string)
    requires |s| > 0 && !IsJsSpace(s[0]) && !IsJsSpace(s[|s| - 1])
    ensures Trim(s) == s
  {
  }

  /** Every character of `s` is white space. */
  predicate IsPadding(s: string) {
    forall k :: 0 <= k < |s| ==> IsJsSpace(s[k])
  }

  /** Leading white space is invisible to `TrimStart`. */
  lemma {:induction false} TrimStartSkipsPadding(pad: string, s: string)
    requires IsPadding(pad)
    ensures TrimStart(pad + s) == TrimStart(s)
  {
    if |pad| == 0 {
      assert pad + s == s;
    } else {
      assert (pad + s)[0] == pad[0];
      assert (pad + s)[1..] == pad[1..] + s;
      TrimStartSkipsPadding(pad[1..], s);
    }
  }

  /** Trailing white space is invisible to `TrimEnd`. */
  lemma {:induction false} TrimEndSkipsPadding(s: string, pad: string)
    requires IsPadding(pad)
    ensures TrimEnd(s + pad) == TrimEnd(s)
  {
    if |pad| == 0 {
      assert s + pad == s;
    } else {
      var x := s + pad;
      assert x[|x| - 1] == pad[|pad| - 1];
      assert x[..|x| - 1] == s + pad[..|pad| - 1];
      TrimEndSkipsPadding(s, pad[..|pad| - 1]);
    }
  }

  /** Trimming removes exactly the white-space padding around a string
      that neither starts nor ends with white space. */
  lemma TrimPadded(pre: string, s: string, post: string)
    requires IsPadding(pre) && IsPadding(post)
    requires |s| > 0 && !IsJsSpace(s[0]) && !IsJsSpace(s[|s| - 1])
    ensures Trim(pre + s + post) == s
  {
    assert pre + s + post == pre + (s + post);
    TrimStartSkipsPadding(pre, s + post);
    assert (s + post)[0] == s[0];
    assert TrimStart(s + post) == s + post;
    TrimEndSkipsPadding(s, post);
  }

  /** `s.slice(1, -1)`: the text between the first and the last character;
      empty when `s` has fewer than two characters. */
  function SliceInner(s: string): (r: string)
    ensures |s| >= 2 ==> s == [s[0]] + r + [s[|s| - 1]]
    ensures |s| < 2 ==> r == []
  {
    if |s| >= 2 then s[1..|s| - 1] else []
  }

  /** The pieces joined back with the separator between them
      (`Array.prototype.join`). */
  function Join(xs: seq<string>, sep: char): string {
    if |xs| == 0 then []
    else if |xs| == 1 then xs[0]
    else xs[0] + [sep] + Join(xs[1..], sep)
  }

  /** `s.split(sep)` for a one-character separator: there is always at
      least one piece, no piece contains the separator, and joining the
      pieces gives `s` back. */
  function Split(s: string, sep: char): (r: seq<string>)
    ensures |r| >= 1
    ensures forall k :: 0 <= k < |r| ==> sep !in r[k]
    ensures Join(r, sep) == s
  {
    if |s| == 0 then [[]]
    else
      var rest := Split(s[1..], sep);
      if s[0] == sep then
        assert [s[0]] + Join(rest, sep) == s;
        [[]] + rest
      else
        var r := [[s[0]] + rest[0]] + rest[1..];
        assert Join(r, sep) == [s[0]] + Join(rest, sep) by {
          if |rest| > 1 {
            assert r[1..] == rest[1..];
          }
        }
        assert [s[0]] + Join(rest, sep) == s;
        r
  }

  /** Splitting text that starts with a separator-free run `a` puts `a`
      in front of the first piece of the rest. */
  lemma {:induction false} SplitPrefix(a: string, rest: string, sep: char)
    requires sep !in a
    ensures Split(a + rest, sep) ==
            [a + Split(rest, sep)[0]] + Split(rest, sep)[1..]
  {
    if |a| > 0 {
      assert (a + rest)[1..] == a[1..] + rest;
      SplitPrefix(a[1..], rest, sep);
      assert [a[0]] + (a[1..] + Split(rest, sep)[0]) == a + Split(rest, sep)[0];
    } else {
      var sr := Split(rest, sep);
      assert a + rest == rest;
      assert a + sr[0] == sr[0];
      assert sr == [sr[0]] + sr[1..];
    }
  }

  /** A leading separator splits off an empty first piece. */
  lemma SplitLeadingSep(t: string, sep: char)
    ensures Split([sep] + t, sep) == [[]] + Split(t, sep)
  {
    assert ([sep] + t)[1..] == t;
  }

  /** The first two pieces of `a sep b sep rest` are `a` and `b`, whatever
      `rest` holds. */
  lemma SplitTwoFields(a: string, b: string, rest: string, sep: char)
    requires sep !in a && sep !in b
    ensures |Split(a + [sep] + b + [sep] + rest, sep)| >= 2
    ensures Split(a + [sep] + b + [sep] + rest, sep)[0] == a
    ensures Split(a + [sep] + b + [sep] + rest, sep)[1] == b
  {
    var t := b + [sep] + rest;
    assert a + [sep] + b + [sep] + rest == a + ([sep] + t);
    SplitPrefix(a, [sep] + t, sep);
    SplitLeadingSep(t, sep);
    assert t == b + ([sep] + rest);
    SplitPrefix(b, [sep] + rest, sep);
    SplitLeadingSep(rest, sep);
    assert a + [] == a && b + [] == b;
  }

  /** `split` undoes `join` for separator-free pieces. */
  lemma {:induction false} SplitJoin(xs: seq<string>, sep: char)
    requires |xs| >= 1
    requires forall k :: 0 <= k < |xs| ==> sep !in xs[k]
    ensures Split(Join(xs, sep), sep) == xs
  {
    if |xs| == 1 {
      SplitPrefix(xs[0], [], sep);
      assert xs[0] + [] == xs[0];
    } else {
      var tail := Join(xs[1..], sep);
      SplitJoin(xs[1..], sep);
      assert xs[0] + [sep] + tail == xs[0] + ([sep] + tail);
      SplitPrefix(xs[0], [sep] + tail, sep);
      assert ([sep] + tail)[1..] == tail;
      assert Split([sep] + tail, sep) == [[]] + xs[1..];
      assert xs[0] + [] == xs[0];
    }
  }

  /** The value of a digit character in radices up to 36, or 36 for a
      character that is no digit at all. */
  function DigitValue(c: char): (d: nat)
    ensures d <= 36
  {
    if '0' <= c <= '9' then c as int - '0' as int
    else if 'a' <= c <= 'z' then c as int - 'a' as int + 10
    else if 'A' <= c <= 'Z' then c as int - 'A' as int + 10
    else 36
  }

  /** The longest prefix of `s` made of digits of the given radix. */
  function DigitPrefix(s: string, radix: nat): (r: string)
    ensures |r| <= |s| && r == s[..|r|]
    ensures forall k :: 0 <= k < |r| ==> DigitValue(r[k]) < radix
    ensures |r| == |s| || DigitValue(s[|r|]) >= radix
  {
    if |s| > 0 && DigitValue(s[0]) < radix then [s[0]] + DigitPrefix(s[1..], radix) else []
  }

  /** The number a digit string denotes, most significant digit first. */
  function DigitsValue(z: string, radix: nat): int
  {
    if |z| == 0 then 0
    else DigitsValue(z[..|z| - 1], radix) * radix + DigitValue(z[|z| - 1])
  }

  /** The number read from the longest leading run of radix digits of
      `v`; `None` when `v` does not start with such a digit. */
  function ReadDigits(v: string, radix: nat): Option<int>
  {
    var z := DigitPrefix(v, radix);
    if |z| == 0 then None else Some(DigitsValue(z, radix))
  }

  /** An unsigned numeral: a `0x`/`0X` prefix selects radix 16, anything
      else is read in radix 10. */
  function ReadMagnitude(u: string): Option<int>
  {
    if |u| >= 2 && u[0] == '0' && (u[1] == 'x' || u[1] == 'X') then ReadDigits(u[2..], 16)
    else ReadDigits(u, 10)
  }

  /** Global `parseInt(s)` without a radix argument: leading white space
      and one sign are skipped, a `0x`/`0X` prefix selects radix 16, then
      the longest run of digits is read; `None` stands for `NaN` (no digit
      at all). The argument `undefined` is `parseInt("undefined")`, also
      `NaN`, which callers express by passing `None`. */
  function ParseInt(s: Option<string>): Option<int>
  {
    match s
    case None => None
    case Some(text) => ReadSigned(TrimStart(text))
  }

  /** An optionally signed numeral, white space already skipped. */
  function ReadSigned(t: string): Option<int>
  {
    if |t| > 0 && t[0] == '-' then
      match ReadMagnitude(t[1..])
      case None => None
      case Some(m) => Some(-m)
    else if |t| > 0 && t[0] == '+' then ReadMagnitude(t[1..])
    else ReadMagnitude(t)
  }

  /** `parseInt` skips leading white space. */
  lemma ParseIntSkipsLeadingSpace(pad: string, text: string)
    requires IsPadding(pad)
    ensures ParseInt(Some(pad + text)) == ParseInt(Some(text))
  {
    TrimStartSkipsPadding(pad, text);
  }

  /** A leading `-` negates the unsigned numeral after it and a leading
      `+` is dropped; no white space is skipped after the sign. Neither
      sign alone is a number. */
  lemma ParseIntSign(u: string)
    ensures ParseInt(Some("-" + u)) == if ReadMagnitude(u).Some? then Some(-ReadMagnitude(u).value) else None
    ensures ParseInt(Some("+" + u)) == ReadMagnitude(u)
    ensures ParseInt(Some("-")) == None && ParseInt(Some("+")) == None
  {
    SignedAfterSpace('-', u);
    SignedAfterSpace('+', u);
    SignedAfterSpace('-', []);
    SignedAfterSpace('+', []);
    assert "-" + [] == "-" && "+" + [] == "+";
    ReadDigitsNaN([], 10);
  }

  /** A sign is not white space: `parseInt` reads the signed numeral as
      it stands. */
  lemma SignedAfterSpace(sign: char, u: string)
    requires sign == '-' || sign == '+'
    ensures TrimStart([sign] + u) == [sign] + u
    ensures ParseInt(Some([sign] + u)) == ReadSigned([sign] + u)
    ensures ([sign] + u)[0] == sign && ([sign] + u)[1..] == u
  {
  }

  /** No digit of the radix in front is `NaN`. */
  lemma ReadDigitsNaN(v: string, radix: nat)
    ensures ReadDigits(v, radix).None? <==> |v| == 0 || DigitValue(v[0]) >= radix
  {
  }

  /** Without white space or sign in front, `parseInt` reads an unsigned
      numeral. */
  lemma ParseIntUnsigned(u: string)
    requires |u| == 0 || (!IsJsSpace(u[0]) && u[0] != '-' && u[0] != '+')
    ensures ParseInt(Some(u)) == ReadMagnitude(u)
  {
    assert TrimStart(u) == u;
    assert ReadSigned(u) == ReadMagnitude(u);
  }

  /** After `0x` or `0X`, `parseInt` reads the longest run of hexadecimal
      digits; the prefix alone is `NaN`. */
  lemma ParseIntHex(d: string)
    ensures ParseInt(Some("0x" + d)) == ReadDigits(d, 16)
    ensures ParseInt(Some("0X" + d)) == ReadDigits(d, 16)
    ensures ParseInt(Some("0x")) == None && ParseInt(Some("0X")) == None
  {
    assert ("0x" + d)[0] == '0' && ("0x" + d)[1] == 'x' && ("0x" + d)[2..] == d;
    assert ("0X" + d)[0] == '0' && ("0X" + d)[1] == 'X' && ("0X" + d)[2..] == d;
    ParseIntUnsigned("0x" + d);
    ParseIntUnsigned("0X" + d);
    assert "0x" + [] == "0x" && "0X" + [] == "0X";
  }

  /** Without a `0x`/`0X` prefix, `parseInt` reads the longest run of
      decimal digits; no digit at all is `NaN`. */
  lemma ParseIntDecimalDigits(u: string)
    requires |u| == 0 || (!IsJsSpace(u[0]) && u[0] != '-' && u[0] != '+')
    requires !(|u| >= 2 && u[0] == '0' && (u[1] == 'x' || u[1] == 'X'))
    ensures ParseInt(Some(u)) == ReadDigits(u, 10)
    ensures ParseInt(Some(u)).None? <==> |u| == 0 || !('0' <= u[0] <= '9')
  {
    ParseIntUnsigned(u);
    ReadDigitsNaN(u, 10);
    if |u| > 0 {
      DecimalDigitValue(u[0]);
    }
  }

  /** Exactly the characters `0`..`9` are digits in radix 10. */
  lemma DecimalDigitValue(c: char)
    ensures DigitValue(c) < 10 <==> '0' <= c <= '9'
  {
  }

  /** The decimal digit character for `d`. */
  function DigitChar(d: nat): (c: char)
    requires d < 10
    ensures '0' <= c <= '9' && DigitValue(c) == d
  {
    ('0' as int + d) as char
  }

  predicate IsDecimal(c: char) {
    '0' <= c <= '9'
  }

  /** The canonical decimal rendering of `n`, as `${n}` produces it: only
      decimal digits, and no leading zero unless `n` is zero. */
  function NatToString(n: nat): (r: string)
    ensures |r| >= 1
    ensures forall k :: 0 <= k < |r| ==> IsDecimal(r[k])
    ensures n > 0 ==> r[0] != '0'
    ensures n == 0 ==> r == "0"
  {
    if n < 10 then [DigitChar(n)] else NatToString(n / 10) + [DigitChar(n % 10)]
  }

  /** Reading back the digits of `NatToString(n)` gives `n`. */
  lemma {:induction false} DigitsOfNatToString(n: nat)
    ensures DigitsValue(NatToString(n), 10) == n
  {
    var r := NatToString(n);
    if n >= 10 {
      DigitsOfNatToString(n / 10);
      assert r[..|r| - 1] == NatToString(n / 10);
    }
  }

  /** A string made only of digits of the radix is its own digit prefix. */
  lemma DigitPrefixOfDigits(s: string, radix: nat)
    requires forall k :: 0 <= k < |s| ==> DigitValue(s[k]) < radix
    ensures DigitPrefix(s, radix) == s
  {
  }

  /** `parseInt` reads a canonical decimal numeral as the number it
      denotes. */
  lemma ParseIntOfDecimal(s: string)
    requires |s| >= 1
    requires forall k :: 0 <= k < |s| ==> IsDecimal(s[k])
    requires s[0] == '0' ==> |s| == 1
    ensures ParseInt(Some(s)) == Some(DigitsValue(s, 10))
  {
    assert TrimStart(s) == s by {
      assert !IsJsSpace(s[0]);
    }
    assert ParseInt(Some(s)) == ReadMagnitude(s) by {
      assert s[0] != '-' && s[0] != '+';
    }
    assert ReadMagnitude(s) == ReadDigits(s, 10);
    assert forall k :: 0 <= k < |s| ==> DigitValue(s[k]) < 10;
    DigitPrefixOfDigits(s, 10);
  }

  /** `parseInt` inverts the decimal rendering of a natural number. */
  lemma ParseIntOfNatToString(n: nat)
    ensures ParseInt(Some(NatToString(n))) == Some(n)
  {
    ParseIntOfDecimal(NatToString(n));
    DigitsOfNatToString(n);
  }

  /** Distinct numbers have distinct decimal renderings. */
  lemma NatToStringInjective(a: nat, b: nat)
    requires NatToString(a) == NatToString(b)
    ensures a == b
  {
    ParseIntOfNatToString(a);
    ParseIntOfNatToString(b);
  }
}

=== FILE: operations.dfy ===
/** `getOperations`, the operation menu shown to the user, and the
    (product, operation) routing table `execute` dispatches on. */
module Operations {
  import opened Base
  import opened Api

  /** One entry of the operation menu (its description text is not
      modelled). */
  datatype OperationOption = OperationOption(name: string, value: string)

  function Values(opts: seq<OperationOption>): (r: seq<string>)
    ensures |r| == |opts|
    ensures forall k :: 0 <= k < |r| ==> r[k] == opts[k].value
  {
    if |opts| == 0 then [] else [opts[0].value] + Values(opts[1..])
  }

  /** The menu for a validation outcome: a single `error` entry when
      validation failed (whether the call threw or answered
      `success: false`); otherwise the operations of the product, the
      notifyer's template send first, and never the `error` entry. Any
      other product is offered `sendMessage`. The menu is never empty and
      has no duplicates. */
  function GetOperations(v: Validation): (r: seq<OperationOption>)
    ensures |r| >= 1
    ensures ValidationFailed(v) ==> Values(r) == [ErrorValue]
    ensures !ValidationFailed(v) ==> ErrorValue !in Values(r)
    ensures !ValidationFailed(v) && v.product == Notifier ==> Values(r) == [SendMessage]
    ensures !ValidationFailed(v) && v.product == Notifyer ==>
              Values(r) == [SendNotifyerTemplate, SendNonTemplateMessage]
    ensures !ValidationFailed(v) && v.product == Whatsable ==> Values(r) == [SendWhatsableMessage]
    ensures !ValidationFailed(v) && !(v.product in {Notifier, Notifyer, Whatsable}) ==>
              Values(r) == [SendMessage]
    ensures forall a, b :: 0 <= a < b < |r| ==> r[a].value != r[b].value
  {
    if ValidationFailed(v) then
      [OperationOption("Error: " + v.message, ErrorValue)]
    else if v.product == Notifier then
      [OperationOption("Send Message (Notifier)", SendMessage)]
    else if v.product == Notifyer then
      [OperationOption("Send Template (Notifyer)", SendNotifyerTemplate),
       OperationOption("Send Non Template Message", SendNonTemplateMessage)]
    else if v.product == Whatsable then
      [OperationOption("Send Message (WhatsAble)", SendWhatsableMessage)]
    else
      [OperationOption("Send Message (" + v.product + ")", SendMessage)]
  }

  /** The request shape `execute` builds for an item. */
  datatype Route = NotifierSend | NotifyerTemplate | NotifyerNonTemplate | WhatsableSend | Unsupported

  /** The four (product, operation) pairs that dispatch a request. */
  const SupportedPairs: set<(string, string)> :=
    {(Notifier, SendMessage), (Notifyer, SendNotifyerTemplate),
     (Notifyer, SendNonTemplateMessage), (Whatsable, SendWhatsableMessage)}

  /** The routing table: exactly the supported pairs dispatch, each to its
      own route. */
  function RouteOf(product: string, operation: string): (r: Route)
    ensures r != Unsupported <==> (product, operation) in SupportedPairs
    ensures r == NotifierSend <==> (product, operation) == (Notifier, SendMessage)
    ensures r == NotifyerTemplate <==> (product, operation) == (Notifyer, SendNotifyerTemplate)
    ensures r == NotifyerNonTemplate <==> (product, operation) == (Notifyer, SendNonTemplateMessage)
    ensures r == WhatsableSend <==> (product, operation) == (Whatsable, SendWhatsableMessage)
  {
    if product == Notifier && operation == SendMessage then NotifierSend
    else if product == Notifyer && operation == SendNotifyerTemplate then NotifyerTemplate
    else if product == Notifyer && operation == SendNonTemplateMessage then NotifyerNonTemplate
    else if product == Whatsable && operation == SendWhatsableMessage then WhatsableSend
    else Unsupported
  }

  predicate IsKnownProduct(product: string) {
    product == Notifier || product == Notifyer || product == Whatsable
  }

  /** For the three known products, the menu offers exactly the
      operations `execute` dispatches for that product. */
  lemma OfferedIffDispatched(v: Validation, operation: string)
    requires !ValidationFailed(v) && IsKnownProduct(v.product)
    ensures operation in Values(GetOperations(v)) <==> RouteOf(v.product, operation) != Unsupported
  {
  }

  /** For any other product the menu still offers `sendMessage`, yet
      `execute` rejects that pair: the default entry cannot be run. */
  lemma UnknownProductOfferIsRejected(v: Validation)
    requires !ValidationFailed(v) && !IsKnownProduct(v.product)
    ensures Values(GetOperations(v)) == [SendMessage]
    ensures RouteOf(v.product, SendMessage) == Unsupported
  {
  }
}

=== FILE: template_fields.dfy ===
/** `getTemplateVariables` and its inner `parseTemplateFormat`: turning the
    compact format string of a WhatsApp template (such as `{b:2,m:1,vw:1}`)
    into the resource-mapper fields the user fills in. */
module TemplateFields {
  import opened Base
  import opened JsText

  /** A template button; `url` is "" when the button has no (truthy) URL. */
  datatype Button = Button(url: string)

  /** The `example` object of a component: `body_text` is a list of example
      rows when present. */
  datatype Example = Example(bodyText: Option<seq<seq<string>>>)

  /** One entry of `components.components`: HEADER, BODY, BUTTONS, ... */
  datatype Component = Component(
    kind: string,
    format: Option<string>,
    example: Option<Example>,
    buttons: Option<seq<Button>>)

  /** The template descriptor stored in an option value. `components` is
      the inner array `components.components`; `None` stands for any value
      on which looking that array up or calling `find` on it throws. */
  datatype TemplateData = TemplateData(
    templateId: Option<string>,
    templateFormat: Option<string>,
    components: Option<seq<Component>>)

  /** What `JSON.parse` makes of an option value: a descriptor; the JSON
      `null`, whose properties cannot be read; or the message of the
      syntax error `JSON.parse` throws. Other JSON values that are not
      objects read every property as `undefined`, so they decode as a
      descriptor whose fields are all absent. */
  datatype Decoded = Parsed(data: TemplateData) | NullValue | Malformed(message: string)

  /** A resource-mapper field; the help text (`displayName`) is not
      modelled. */
  datatype Field = Field(
    id: string,
    required: bool,
    display: bool,
    defaultMatch: bool,
    canBeUsedToMatch: bool,
    fieldType: string)

  const MediaId: string := "media"
  const VisitWebsiteId: string := "visit_website"

  /** Every field the parser emits has the same flags: required, shown,
      matched by default and of type 'string'. */
  function MapperField(id: string): Field {
    Field(id, true, true, true, true, "string")
  }

  predicate IsMapperField(f: Field) {
    f.required && f.display && f.defaultMatch && f.canBeUsedToMatch && f.fieldType == "string"
  }

  /** The id of the `i`-th body variable, `body${i}`. */
  function BodyId(i: nat): string {
    "body" + NatToString(i)
  }

  /** The ids the parser can emit. */
  ghost predicate IsKnownId(id: string) {
    id == MediaId || id == VisitWebsiteId || exists i: nat :: i >= 1 && id == BodyId(i)
  }

  /** Distinct body positions get distinct ids. */
  lemma BodyIdInjective(a: nat, b: nat)
    requires BodyId(a) == BodyId(b)
    ensures a == b
  {
    assert NatToString(a) == BodyId(a)[4..];
    assert NatToString(b) == BodyId(b)[4..];
    NatToStringInjective(a, b);
  }

  /** The fields `body1` .. `bodyN` in ascending order, produced by the
      loop `for (i = 1; i <= N; i++)`: none when `N` is not positive. */
  function BodyFields(n: int): (r: seq<Field>)
    ensures |r| == if n > 0 then n else 0
    ensures forall j :: 0 <= j < |r| ==> r[j] == MapperField(BodyId(j + 1))
    decreases if n > 0 then n else 0
  {
    if n <= 0 then [] else BodyFields(n - 1) + [MapperField(BodyId(n))]
  }

  /** `Array.prototype.find` on the component list by `type`: the first
      component of that kind, if any. */
  function FindKind(cs: seq<Component>, kind: string): (r: Option<Component>)
    ensures r.None? <==> forall k :: 0 <= k < |cs| ==> cs[k].kind != kind
    ensures r.Some? ==> exists k :: 0 <= k < |cs| && cs[k] == r.value && cs[k].kind == kind &&
                                    forall j :: 0 <= j < k ==> cs[j].kind != kind
  {
    if |cs| == 0 then None
    else if cs[0].kind == kind then Some(cs[0])
    else
      var r := FindKind(cs[1..], kind);
      assert r.Some? ==> exists k :: 0 <= k < |cs| && cs[k] == r.value && cs[k].kind == kind &&
                                     forall j :: 0 <= j < k ==> cs[j].kind != kind by {
        if r.Some? {
          var k :| 0 <= k < |cs[1..]| && cs[1..][k] == r.value && cs[1..][k].kind == kind &&
                   forall j :: 0 <= j < k ==> cs[1..][j].kind != kind;
          assert cs[k + 1] == r.value;
          assert forall j :: 0 <= j < k + 1 ==> cs[j].kind != kind by {
            forall j | 0 <= j < k + 1
              ensures cs[j].kind != kind
            {
              if j > 0 {
                assert cs[j] == cs[1..][j - 1];
              }
            }
          }
        }
      }
      assert r.None? <==> forall k :: 0 <= k < |cs| ==> cs[k].kind != kind by {
        if r.None? {
          forall k | 0 <= k < |cs|
            ensures cs[k].kind != kind
          {
            if k > 0 {
              assert cs[k] == cs[1..][k - 1];
            }
          }
        }
      }
      r
  }

  /** Whether `templateData.components.components[0].example.body_text[0]`
      can be read: every body field's help text reads an entry of it, so
      when it cannot, emitting the first body field throws. */
  predicate BodyExampleReadable(comps: Option<seq<Component>>) {
    && comps.Some?
    && |comps.value| > 0
    && comps.value[0].example.Some?
    && comps.value[0].example.value.bodyText.Some?
    && |comps.value[0].example.value.bodyText.value| > 0
  }

  /** Whether the HEADER lookup for a media part throws: the component
      list cannot be searched, or the first HEADER has no `format` to
      lower-case. */
  predicate MediaLookupThrows(comps: Option<seq<Component>>) {
    || comps.None?
    || (var h := FindKind(comps.value, "HEADER"); h.Some? && h.value.format.None?)
  }

  /** Whether the URL-button lookup for a website part throws: the
      component list cannot be searched, or the first BUTTONS component has
      no `buttons` array to search. */
  predicate WebsiteLookupThrows(comps: Option<seq<Component>>) {
    || comps.None?
    || (var b := FindKind(comps.value, "BUTTONS"); b.Some? && b.value.buttons.None?)
  }

  /** The result of handling one part: the fields it pushes, or an
      exception thrown before it pushed anything. */
  datatype PartOutcome = Emits(fields: seq<Field>) | Throws

  /** `type` in `const [type, count] = part.split(':')`. */
  function PartKind(part: string): string {
    Split(part, ':')[0]
  }

  /** `count` in `const [type, count] = part.split(':')`: `None` when the
      part has no colon (the destructured value is `undefined`). */
  function PartCount(part: string): Option<string> {
    var segs := Split(part, ':');
    if |segs| >= 2 then Some(segs[1]) else None
  }

  /** `parseInt(count)`, with `NaN` read as zero iterations of the body
      loop (every comparison with `NaN` is false). */
  function BodyCount(part: string): int {
    match ParseInt(PartCount(part))
    case None => 0
    case Some(n) => n
  }

  /** One iteration of `parts.forEach`. Only `b`, `m` and `vw` parts can
      throw; every field pushed is a mapper field. */
  function ParsePart(part: string, comps: Option<seq<Component>>): (r: PartOutcome)
    ensures r.Emits? ==> forall k :: 0 <= k < |r.fields| ==> IsMapperField(r.fields[k])
    ensures r.Emits? ==> forall k :: 0 <= k < |r.fields| ==> IsKnownId(r.fields[k].id)
    ensures r.Throws? ==> PartKind(part) in {"b", "m", "vw"}
  {
    var kind := PartKind(part);
    if kind == "b" then
      var n := BodyCount(part);
      if n >= 1 && !BodyExampleReadable(comps) then Throws
      else
        var fs := BodyFields(n);
        assert forall k :: 0 <= k < |fs| ==> IsKnownId(fs[k].id) by {
          forall k | 0 <= k < |fs|
            ensures IsKnownId(fs[k].id)
          {
            assert fs[k].id == BodyId(k + 1);
          }
        }
        Emits(fs)
    else if kind == "m" then
      if MediaLookupThrows(comps) then Throws else Emits([MapperField(MediaId)])
    else if kind == "vw" then
      if WebsiteLookupThrows(comps) then Throws else Emits([MapperField(VisitWebsiteId)])
    else Emits([])
  }

  /** Every field a handled part pushed is a mapper field with a known
      id. */
  ghost predicate OutcomeWellFormed(o: PartOutcome) {
    o.Emits? ==> forall k :: 0 <= k < |o.fields| ==> IsMapperField(o.fields[k]) && IsKnownId(o.fields[k].id)
  }

  /** The `forEach` pushing into the shared `returnData.fields`, given what
      each part does: an exception ends the loop, and the catch returns the
      fields pushed so far. */
  function Collect(outs: seq<PartOutcome>): seq<Field> {
    if |outs| == 0 then []
    else match outs[0]
      case Throws => []
      case Emits(fs) => fs + Collect(outs[1..])
  }

  /** The fields returned are mapper fields with known ids whenever every
      handled part's fields are. */
  lemma {:induction false} CollectWellFormed(outs: seq<PartOutcome>)
    requires forall j :: 0 <= j < |outs| ==> OutcomeWellFormed(outs[j])
    ensures forall k :: 0 <= k < |Collect(outs)| ==> IsMapperField(Collect(outs)[k]) && IsKnownId(Collect(outs)[k].id)
  {
    if |outs| > 0 && outs[0].Emits? {
      assert forall j :: 0 <= j < |outs[1..]| ==> OutcomeWellFormed(outs[1..][j]) by {
        forall j | 0 <= j < |outs[1..]|
          ensures OutcomeWellFormed(outs[1..][j])
        {
          assert outs[1..][j] == outs[j + 1];
        }
      }
      CollectWellFormed(outs[1..]);
      assert OutcomeWellFormed(outs[0]);
    }
  }

  /** What each trimmed part of the format does, in order. */
  function PartOutcomes(parts: seq<string>, comps: Option<seq<Component>>): (r: seq<PartOutcome>)
    ensures |r| == |parts|
    ensures forall k :: 0 <= k < |r| ==> OutcomeWellFormed(r[k])
  {
    seq(|parts|, k requires 0 <= k < |parts| => ParsePart(Trim(parts[k]), comps))
  }

  /** `parseTemplateFormat(format, components)`: drop the enclosing braces,
      split on commas, and handle each trimmed part in order; the fields
      are mapper fields with known ids. */
  function ParseTemplateFormat(format: string, comps: Option<seq<Component>>): (r: seq<Field>)
    ensures forall k :: 0 <= k < |r| ==> IsMapperField(r[k]) && IsKnownId(r[k].id)
  {
    var outs := PartOutcomes(Split(SliceInner(format), ','), comps);
    CollectWellFormed(outs);
    Collect(outs)
  }

  /** The option values that stand for "no template": empty, `notfound`
      and `error`. */
  predicate IsSentinel(templateValue: string) {
    templateValue == "" || templateValue == "notfound" || templateValue == "error"
  }

  /** `getTemplateVariables`: sentinel values give no fields without being
      parsed; a value that does not decode, decodes to `null`, or whose
      `template_formate` is not a string, gives no fields either (the
      catch returns the empty list); otherwise the fields of the format
      string. Every field is a required string field with a known id. */
  function GetTemplateVariables(templateValue: string, decode: string -> Decoded): (r: seq<Field>)
    ensures IsSentinel(templateValue) ==> r == []
    ensures !IsSentinel(templateValue) && !decode(templateValue).Parsed? ==> r == []
    ensures (!IsSentinel(templateValue) && decode(templateValue).Parsed? &&
             decode(templateValue).data.templateFormat.None?) ==> r == []
    ensures forall k :: 0 <= k < |r| ==> IsMapperField(r[k]) && IsKnownId(r[k].id)
  {
    if IsSentinel(templateValue) then []
    else match decode(templateValue)
      case Malformed(_) => []
      case NullValue => []
      case Parsed(data) =>
        match data.templateFormat
        case None => []
        case Some(format) => ParseTemplateFormat(format, data.components)
  }

  /** No handled part threw. */
  predicate AllEmit(outs: seq<PartOutcome>) {
    forall k :: 0 <= k < |outs| ==> outs[k].Emits?
  }

  /** No part throws exactly when the first does not and no later one
      does. */
  lemma AllEmitCons(outs: seq<PartOutcome>)
    requires |outs| > 0
    ensures AllEmit(outs) <==> outs[0].Emits? && AllEmit(outs[1..])
  {
    if outs[0].Emits? && AllEmit(outs[1..]) {
      forall k | 0 <= k < |outs|
        ensures outs[k].Emits?
      {
        if k > 0 {
          assert outs[k] == outs[1..][k - 1];
        }
      }
    }
  }

  /** One step of the fold: a first part that throws ends it, one that
      emits puts its fields in front of the rest. */
  lemma CollectCons(outs: seq<PartOutcome>)
    requires |outs| > 0
    ensures Collect(outs) == if outs[0].Emits? then outs[0].fields + Collect(outs[1..]) else []
  {
  }

  /** Parts are handled in order: the fields of two consecutive groups of
      parts are those of the first group followed, if no part of the first
      group threw, by those of the second. */
  lemma {:induction false} CollectAppend(o1: seq<PartOutcome>, o2: seq<PartOutcome>)
    ensures Collect(o1 + o2) == Collect(o1) + (if AllEmit(o1) then Collect(o2) else [])
  {
    if |o1| == 0 {
      assert o1 + o2 == o2;
    } else {
      var o := o1 + o2;
      assert o[0] == o1[0];
      assert o[1..] == o1[1..] + o2;
      AllEmitCons(o1);
      CollectCons(o);
      CollectCons(o1);
      if o1[0].Emits? {
        CollectAppend(o1[1..], o2);
      }
    }
  }

  /** When a part throws, the result is exactly the fields accumulated by
      the parts before it. */
  lemma ThrowKeepsEarlierFields(outs: seq<PartOutcome>, k: nat)
    requires k < |outs| && outs[k].Throws?
    ensures Collect(outs) == Collect(outs[..k])
  {
    assert outs == outs[..k] + outs[k..];
    CollectAppend(outs[..k], outs[k..]);
    assert outs[k..][0] == outs[k];
  }

  /** When no part throws, every part's fields appear, in order. */
  lemma {:induction false} CollectAllEmit(outs: seq<PartOutcome>)
    requires AllEmit(outs)
    ensures |outs| > 0 ==> Collect(outs) == outs[0].fields + Collect(outs[1..])
    ensures |Collect(outs)| == FieldCount(outs)
  {
    if |outs| > 0 {
      assert AllEmit(outs[1..]) by {
        forall k | 0 <= k < |outs[1..]|
          ensures outs[1..][k].Emits?
        {
          assert outs[1..][k] == outs[k + 1];
        }
      }
      CollectAllEmit(outs[1..]);
    }
  }

  /** The total number of fields the parts push. */
  function FieldCount(outs: seq<PartOutcome>): nat {
    if |outs| == 0 then 0
    else (if outs[0].Emits? then |outs[0].fields| else 0) + FieldCount(outs[1..])
  }

  /** What one part does, by its type: the single unfolding of
      `ParsePart` the part lemmas below rely on. */
  lemma ParsePartByKind(part: string, comps: Option<seq<Component>>)
    ensures PartKind(part) == "b" ==>
              ParsePart(part, comps) ==
              if BodyCount(part) >= 1 && !BodyExampleReadable(comps) then Throws
              else Emits(BodyFields(BodyCount(part)))
    ensures PartKind(part) == "m" ==>
              ParsePart(part, comps) == if MediaLookupThrows(comps) then Throws else Emits([MapperField(MediaId)])
    ensures PartKind(part) == "vw" ==>
              ParsePart(part, comps) == if WebsiteLookupThrows(comps) then Throws else Emits([MapperField(VisitWebsiteId)])
    ensures PartKind(part) !in {"b", "m", "vw"} ==> ParsePart(part, comps) == Emits([])
  {
  }

  /** Splitting `kind:count` on colons, when neither side has one. */
  lemma SplitKindCount(kind: string, count: string)
    requires ':' !in kind && ':' !in count
    ensures Split(kind + ":" + count, ':') == [kind, count]
    ensures PartKind(kind + ":" + count) == kind
    ensures PartCount(kind + ":" + count) == Some(count)
  {
    SplitJoin([kind, count], ':');
    assert Join([kind, count], ':') == kind + ":" + count;
  }

  /** Only the first two `:`-segments of a part matter: a part with more
      colons behaves as its first two segments, as the destructuring
      `[type, count]` drops the rest. */
  lemma ExtraSegmentsIgnored(kind: string, count: string, rest: string, comps: Option<seq<Component>>)
    requires ':' !in kind && ':' !in count
    ensures PartKind(kind + ":" + count + ":" + rest) == kind
    ensures PartCount(kind + ":" + count + ":" + rest) == Some(count)
    ensures ParsePart(kind + ":" + count + ":" + rest, comps) == ParsePart(kind + ":" + count, comps)
  {
    var part := kind + ":" + count + ":" + rest;
    SplitTwoFields(kind, count, rest, ':');
    SplitKindCount(kind, count);
    assert BodyCount(part) == BodyCount(kind + ":" + count);
    ParsePartByKind(part, comps);
    ParsePartByKind(kind + ":" + count, comps);
  }

  /** Splitting a part without a colon leaves it whole. */
  lemma SplitKindOnly(kind: string)
    requires ':' !in kind
    ensures Split(kind, ':') == [kind]
    ensures PartKind(kind) == kind
    ensures PartCount(kind) == None
  {
    SplitJoin([kind], ':');
  }

  /** A `b:N` part with a positive numeric count emits exactly `N` fields
      `body1` .. `bodyN` when the body example can be read, and throws
      before emitting anything otherwise. */
  lemma BodyPartEmitsCount(count: string, comps: Option<seq<Component>>)
    requires ':' !in count
    requires ParseInt(Some(count)).Some? && ParseInt(Some(count)).value >= 1
    ensures var n := ParseInt(Some(count)).value;
            ParsePart("b:" + count, comps) ==
            if BodyExampleReadable(comps) then Emits(BodyFields(n)) else Throws
  {
    var part := "b:" + count;
    assert "b" + ":" == "b:";
    SplitKindCount("b", count);
    assert BodyCount(part) == ParseInt(Some(count)).value;
    ParsePartByKind(part, comps);
  }

  /** A `b` part whose count is missing, not numeric, or not positive emits
      no field, and never throws. */
  lemma BodyPartWithoutPositiveCount(count: string, comps: Option<seq<Component>>)
    requires ':' !in count
    requires ParseInt(Some(count)).None? || ParseInt(Some(count)).value <= 0
    ensures ParsePart("b:" + count, comps) == Emits([])
    ensures ParsePart("b", comps) == Emits([])
  {
    BodyPartKindAndCount(count);
    assert BodyFields(BodyCount("b:" + count)) == [];
    ParsePartByKind("b:" + count, comps);
    BareBodyPartEmitsNothing(comps);
  }

  /** A `b:<count>` part is a `b` part whose count is `parseInt(count)`. */
  lemma BodyPartKindAndCount(count: string)
    requires ':' !in count
    ensures PartKind("b:" + count) == "b"
    ensures BodyCount("b:" + count) == match ParseInt(Some(count)) case None => 0 case Some(n) => n
  {
    assert "b" + ":" == "b:";
    SplitKindCount("b", count);
  }

  /** A `b` part with no count has no body variables. */
  lemma BareBodyPartEmitsNothing(comps: Option<seq<Component>>)
    ensures ParsePart("b", comps) == Emits([])
  {
    SplitKindOnly("b");
    assert ParseInt(None) == None;
    assert BodyCount("b") == 0;
    assert BodyFields(0) == [];
    ParsePartByKind("b", comps);
  }

  /** An `m` part emits the single `media` field (whatever its count says,
      and also with no count) unless the header lookup throws; likewise
      `vw` and `visit_website`. */
  lemma MediaAndWebsiteParts(count: string, comps: Option<seq<Component>>)
    requires ':' !in count
    ensures ParsePart("m:" + count, comps) ==
            if MediaLookupThrows(comps) then Throws else Emits([MapperField(MediaId)])
    ensures ParsePart("vw:" + count, comps) ==
            if WebsiteLookupThrows(comps) then Throws else Emits([MapperField(VisitWebsiteId)])
    ensures ParsePart("m", comps) ==
            if MediaLookupThrows(comps) then Throws else Emits([MapperField(MediaId)])
    ensures ParsePart("vw", comps) ==
            if WebsiteLookupThrows(comps) then Throws else Emits([MapperField(VisitWebsiteId)])
  {
    SplitKindOnly("m");
    ParsePartByKind("m", comps);
    SplitKindOnly("vw");
    ParsePartByKind("vw", comps);
    assert "m" + ":" == "m:";
    SplitKindCount("m", count);
    ParsePartByKind("m:" + count, comps);
    assert "vw" + ":" == "vw:";
    SplitKindCount("vw", count);
    ParsePartByKind("vw:" + count, comps);
  }

  /** A part of any other type emits nothing and never throws. */
  lemma UnknownPartEmitsNothing(kind: string, rest: string, comps: Option<seq<Component>>)
    requires ':' !in kind
    requires kind !in {"b", "m", "vw"}
    ensures ParsePart(kind + ":" + rest, comps) == Emits([])
    ensures ParsePart(kind, comps) == Emits([])
  {
    assert kind + ":" + rest == kind + ([':'] + rest);
    SplitPrefix(kind, [':'] + rest, ':');
    ParsePartByKind(kind + ":" + rest, comps);
    SplitKindOnly(kind);
    ParsePartByKind(kind, comps);
  }

  /** A part of a format string, as the template service writes it; `m`
      and `vw` may come with or without a count, and `b` without one. */
  datatype PartSpec = BodyPart(count: nat) | BareBodyPart | MediaPart(bare: bool) | WebsitePart(bare: bool)

  function RenderPart(p: PartSpec): string {
    match p
    case BodyPart(n) => "b:" + NatToString(n)
    case BareBodyPart => "b"
    case MediaPart(bare) => if bare then "m" else "m:1"
    case WebsitePart(bare) => if bare then "vw" else "vw:1"
  }

  function RenderedParts(ps: seq<PartSpec>): (r: seq<string>)
    ensures |r| == |ps|
  {
    seq(|ps|, k requires 0 <= k < |ps| => RenderPart(ps[k]))
  }

  /** The compact format string for a list of parts, e.g. `{b:2,m:1}`. */
  function RenderFormat(ps: seq<PartSpec>): string {
    "{" + Join(RenderedParts(ps), ',') + "}"
  }

  /** Reference meaning of a part, independent of any string handling. */
  function SpecFields(p: PartSpec): seq<Field> {
    match p
    case BodyPart(n) => BodyFields(n)
    case BareBodyPart => []
    case MediaPart(_) => [MapperField(MediaId)]
    case WebsitePart(_) => [MapperField(VisitWebsiteId)]
  }

  predicate SpecThrows(p: PartSpec, comps: Option<seq<Component>>) {
    match p
    case BodyPart(n) => n >= 1 && !BodyExampleReadable(comps)
    case BareBodyPart => false
    case MediaPart(_) => MediaLookupThrows(comps)
    case WebsitePart(_) => WebsiteLookupThrows(comps)
  }

  /** The fields of the parts before the first one whose lookup throws. */
  function ExpectedFields(ps: seq<PartSpec>, comps: Option<seq<Component>>): seq<Field> {
    if |ps| == 0 then []
    else if SpecThrows(ps[0], comps) then []
    else SpecFields(ps[0]) + ExpectedFields(ps[1..], comps)
  }

  /** A rendered part has no comma and no surrounding white space. */
  lemma RenderedPartShape(p: PartSpec)
    ensures ',' !in RenderPart(p)
    ensures |RenderPart(p)| > 0 && !IsJsSpace(RenderPart(p)[0]) && !IsJsSpace(RenderPart(p)[|RenderPart(p)| - 1])
    ensures Trim(RenderPart(p)) == RenderPart(p)
  {
    var s := RenderPart(p);
    match p
    case BodyPart(n) =>
      CountedBodyPartShape(n);
    case BareBodyPart =>
      assert s == "b";
    case MediaPart(bare) =>
      assert s == if bare then "m" else "m:1";
    case WebsitePart(bare) =>
      assert s == if bare then "vw" else "vw:1";
    TrimKeepsUnpadded(s);
  }

  /** `b:N` has no comma and ends in a digit. */
  lemma CountedBodyPartShape(n: nat)
    ensures ',' !in "b:" + NatToString(n)
    ensures IsDecimal(("b:" + NatToString(n))[|"b:" + NatToString(n)| - 1])
  {
    var d := NatToString(n);
    var s := "b:" + d;
    assert forall k :: 0 <= k < |d| ==> d[k] != ',' by {
      forall k | 0 <= k < |d|
        ensures d[k] != ','
      {
        assert IsDecimal(d[k]);
      }
    }
    assert s[|s| - 1] == d[|d| - 1];
  }

  /** A rendered part parses back to its reference meaning. */
  lemma PartRoundTrip(p: PartSpec, comps: Option<seq<Component>>)
    ensures ParsePart(Trim(RenderPart(p)), comps) ==
            if SpecThrows(p, comps) then Throws else Emits(SpecFields(p))
  {
    RenderedPartShape(p);
    match p
    case BodyPart(n) =>
      var d := NatToString(n);
      assert ':' !in d by {
        forall k | 0 <= k < |d|
          ensures d[k] != ':'
        {
          assert IsDecimal(d[k]);
        }
      }
      ParseIntOfNatToString(n);
      if n >= 1 {
        BodyPartEmitsCount(d, comps);
      } else {
        BodyPartWithoutPositiveCount(d, comps);
      }
    case BareBodyPart =>
      BareBodyPartEmitsNothing(comps);
    case MediaPart(bare) =>
      assert bare || RenderPart(p) == "m:" + "1";
      MediaAndWebsiteParts("1", comps);
    case WebsitePart(bare) =>
      assert bare || RenderPart(p) == "vw:" + "1";
      MediaAndWebsiteParts("1", comps);
  }

  /** The outcome of each rendered part, from the reference meaning. */
  function SpecOutcome(p: PartSpec, comps: Option<seq<Component>>): PartOutcome {
    if SpecThrows(p, comps) then Throws else Emits(SpecFields(p))
  }

  function SpecOutcomes(ps: seq<PartSpec>, comps: Option<seq<Component>>): (r: seq<PartOutcome>)
    ensures |r| == |ps|
  {
    seq(|ps|, k requires 0 <= k < |ps| => SpecOutcome(ps[k], comps))
  }

  /** Collecting the reference outcomes gives the reference fields. */
  lemma {:induction false} CollectSpecOutcomes(ps: seq<PartSpec>, comps: Option<seq<Component>>)
    ensures Collect(SpecOutcomes(ps, comps)) == ExpectedFields(ps, comps)
  {
    var outs := SpecOutcomes(ps, comps);
    if |ps| > 0 {
      assert outs[0] == SpecOutcome(ps[0], comps);
      assert outs[1..] == SpecOutcomes(ps[1..], comps);
      CollectSpecOutcomes(ps[1..], comps);
    }
  }

  /** A part with white space around it, as in `{b:1, m:1}`. */
  function PadPart(p: PartSpec, pad: (string, string)): string {
    pad.0 + RenderPart(p) + pad.1
  }

  /** Every part's padding is white space. */
  predicate IsPaddingOf(ps: seq<PartSpec>, pads: seq<(string, string)>) {
    |pads| == |ps| && forall k :: 0 <= k < |pads| ==> IsPadding(pads[k].0) && IsPadding(pads[k].1)
  }

  function PaddedParts(ps: seq<PartSpec>, pads: seq<(string, string)>): (r: seq<string>)
    requires |pads| == |ps|
    ensures |r| == |ps|
  {
    seq(|ps|, k requires 0 <= k < |ps| => PadPart(ps[k], pads[k]))
  }

  /** A format string whose parts carry white space around them. */
  function PaddedFormat(ps: seq<PartSpec>, pads: seq<(string, string)>): string
    requires |pads| == |ps|
  {
    "{" + Join(PaddedParts(ps, pads), ',') + "}"
  }

  /** The canonical rendering is the padded one with empty padding. */
  lemma RenderFormatUnpadded(ps: seq<PartSpec>)
    ensures IsPaddingOf(ps, seq(|ps|, k => ([], [])))
    ensures RenderFormat(ps) == PaddedFormat(ps, seq(|ps|, k => ([], [])))
  {
    var pads: seq<(string, string)> := seq(|ps|, k => ([], []));
    forall k | 0 <= k < |ps|
      ensures PaddedParts(ps, pads)[k] == RenderedParts(ps)[k]
    {
      assert [] + RenderPart(ps[k]) + [] == RenderPart(ps[k]);
    }
    assert PaddedParts(ps, pads) == RenderedParts(ps);
  }

  /** The format's inner text splits back into the padded parts. */
  lemma SplitPaddedParts(ps: seq<PartSpec>, pads: seq<(string, string)>)
    requires |ps| > 0 && IsPaddingOf(ps, pads)
    ensures Split(SliceInner(PaddedFormat(ps, pads)), ',') == PaddedParts(ps, pads)
  {
    var parts := PaddedParts(ps, pads);
    var inner := Join(parts, ',');
    assert PaddedFormat(ps, pads) == ['{'] + inner + ['}'];
    forall k | 0 <= k < |parts|
      ensures ',' !in parts[k]
    {
      RenderedPartShape(ps[k]);
      assert !IsJsSpace(',');
      assert parts[k] == pads[k].0 + RenderPart(ps[k]) + pads[k].1;
    }
    SplitJoin(parts, ',');
  }

  /** Each padded part, trimmed and handled, has its reference outcome. */
  lemma OutcomesOfPaddedParts(ps: seq<PartSpec>, pads: seq<(string, string)>, comps: Option<seq<Component>>)
    requires IsPaddingOf(ps, pads)
    ensures PartOutcomes(PaddedParts(ps, pads), comps) == SpecOutcomes(ps, comps)
  {
    var outs := PartOutcomes(PaddedParts(ps, pads), comps);
    forall k | 0 <= k < |ps|
      ensures outs[k] == SpecOutcome(ps[k], comps)
    {
      RenderedPartShape(ps[k]);
      TrimPadded(pads[k].0, RenderPart(ps[k]), pads[k].1);
      PartRoundTrip(ps[k], comps);
    }
  }

  /** An empty part (the only part of `{}`) emits nothing. */
  lemma EmptyPartEmitsNothing(comps: Option<seq<Component>>)
    ensures PartOutcomes([[]], comps) == [Emits([])]
  {
    assert Trim([]) == [];
    UnknownPartEmitsNothing([], [], comps);
  }

  /** The format of no parts is `{}`, and it yields no field: its inner
      text is the single empty part, which emits nothing. */
  lemma EmptyFormat(comps: Option<seq<Component>>)
    ensures RenderFormat([]) == "{}"
    ensures ParseTemplateFormat("{}", comps) == []
  {
    assert RenderedParts([]) == [];
    var f: string := "{}";
    assert |f| == 2;
    assert SliceInner(f) == [];
    assert Split([], ',') == [[]];
    EmptyPartEmitsNothing(comps);
    assert Collect([Emits([])]) == [] + Collect([]);
  }

  /** Round trip of the format string: rendering a list of parts, with
      any white space around each part, and parsing it back yields, in
      order, `body1..bodyN` for each `b:N` (none for a bare `b`), one
      `media` for `m` or `m:1`, one `visit_website` for `vw` or `vw:1`, up
      to the first part whose component lookup throws. Padding after a
      bare part such as `{b:1,m }` is removed by the trim, so its type is
      still recognised. */
  lemma PaddedFormatRoundTrip(ps: seq<PartSpec>, pads: seq<(string, string)>, comps: Option<seq<Component>>)
    requires IsPaddingOf(ps, pads)
    ensures ParseTemplateFormat(PaddedFormat(ps, pads), comps) == ExpectedFields(ps, comps)
  {
    if |ps| == 0 {
      assert PaddedParts(ps, pads) == [];
      assert PaddedFormat(ps, pads) == "{}";
      EmptyFormat(comps);
    } else {
      SplitPaddedParts(ps, pads);
      OutcomesOfPaddedParts(ps, pads, comps);
      CollectSpecOutcomes(ps, comps);
    }
  }

  /** A lone bare `m` surrounded by white space, as in `{m\n}`, is still
      read as a media part: the trim removes the padding on both sides. */
  lemma PaddedBareMedia(pre: string, post: string, comps: Option<seq<Component>>)
    requires IsPadding(pre) && IsPadding(post)
    ensures ParseTemplateFormat("{" + pre + "m" + post + "}", comps) ==
            if MediaLookupThrows(comps) then [] else [MapperField(MediaId)]
  {
    var ps := [MediaPart(true)];
    var pads := [(pre, post)];
    assert PaddedParts(ps, pads) == [pre + "m" + post];
    assert PaddedFormat(ps, pads) == "{" + pre + "m" + post + "}";
    PaddedFormatRoundTrip(ps, pads, comps);
    assert ExpectedFields(ps[1..], comps) == [];
  }

  /** The round trip of the canonical rendering, without white space. */
  lemma FormatRoundTrip(ps: seq<PartSpec>, comps: Option<seq<Component>>)
    ensures ParseTemplateFormat(RenderFormat(ps), comps) == ExpectedFields(ps, comps)
  {
    RenderFormatUnpadded(ps);
    PaddedFormatRoundTrip(ps, seq(|ps|, k => ([], [])), comps);
  }

  /** End to end: a non-sentinel option value whose descriptor carries a
      rendered format string yields the reference fields of its parts. */
  lemma TemplateVariablesOfRenderedFormat(templateValue: string, decode: string -> Decoded,
                                          ps: seq<PartSpec>, comps: Option<seq<Component>>)
    requires !IsSentinel(templateValue)
    requires decode(templateValue).Parsed?
    requires decode(templateValue).data.templateFormat == Some(RenderFormat(ps))
    requires decode(templateValue).data.components == comps
    ensures GetTemplateVariables(templateValue, decode) == ExpectedFields(ps, comps)
  {
    FormatRoundTrip(ps, comps);
  }
}
